=== FILE: README.md ===
# mental-health-ai backend, modelled in Dafny

This project models the core of the backend of a mental-health companion
app. The backend is a FastAPI service that stores chat conversations and
mood entries per user in Firestore, and asks Gemini for replies and
insights. The model covers:

- **Store** (`firestore_service.py`): a per-user document tree with
  conversations, their messages and mood entries. It carries a logical
  clock standing in for `datetime.utcnow()`, and states what every query
  and write does to it. **StoreInvariants** states the consistency the
  writes keep: message counts match the stored messages, and stamps are
  ordered.
- **Chat** (`routers/chat.py`): the streaming relay behind
  `POST /api/chat/message`, as a trace of steps (writes, the prompt sent,
  the events emitted) plus the resulting store. Also the 422 validation,
  the conversation list and the history lookup with its 404.
- **Gemini** (`gemini_service.py`): the prompt built for a chat turn, the
  filter over streamed chunks, the mood summary lines of the analysis
  prompt, and the ephemeral-token grant.
- **Mood** (`routers/mood.py`): the trend classifier over exact real
  means, and the analysis endpoint with its two 400 answers and its empty
  period answer.
- **Schemas** and **Config**: the request bounds and enum values, and the
  CORS origin list derived from the comma-separated setting.
- **Text**, **Sequences** and **Wrappers**: Python string operations
  (`strip`, `split`, `join`), a stable sort and a filter, and the
  Option/Result types.

The model and generated document ids are parameters, and the clock is part
of the store:
- `respond` maps the prompt to raw chunk texts;
- `generate` maps the analysis arguments to an insight;
- `parseDate` and `showDate` stand for `fromisoformat` and date rendering;
- `FreshIds` carries the ids the store generates;
- `Store.clock` is a logical clock carried through every write, which
  reads and advances it; only `Gemini.EphemeralToken` takes the current
  instant `now` as a parameter.

Two behaviours worth stating plainly:
- With an odd number of scores, `calculate_trend` gives the middle entry
  to the second half: `mid = n // 2`, and the second half is `moods[mid:]`
  (`routers/mood.py:24-26`).
- A chat message of invalid length is rejected by request validation,
  which FastAPI answers with 422. The 400 answers belong to the mood
  endpoint's date errors.

## Model

| member | source | states |
|---|---|---|
| Schemas.NewChatMessageRequest | backend/app/models/schemas.py:16-18 | a chat body is accepted iff the message holds 1 to 2000 characters; the conversation id is optional and kept as given; otherwise 422 |
| Schemas.NewJournalInsightRequest | backend/app/models/schemas.py:63-65 | a journal body is accepted iff the content holds 1 to 10000 characters; otherwise 422 |
| Schemas.ParseMessageRole | backend/app/models/schemas.py:21-23 | exactly "user" and "assistant" are roles, and parsing inverts the enum's value |
| Schemas.ParseMoodTrend | backend/app/models/schemas.py:80-83 | exactly "improving", "declining" and "stable" are trends, and parsing inverts the enum's value |
| Config.CorsOrigins | backend/app/config.py:23-25 | one origin per comma plus one; origin `i` is the part of the `i`-th comma-separated piece between its leading and trailing whitespace, so it neither starts nor ends with whitespace and holds no comma |
| Config.CorsOriginsOfJoin | backend/app/config.py:23-25 | origins written comma-separated without surrounding whitespace come back exactly, in their order |
| Config.CorsOriginsOfPaddedJoin | backend/app/config.py:23-25 | origins written comma-separated, each with any whitespace around it, come back exactly, without that whitespace and in their order |
| Config.DefaultCorsOrigins | backend/app/config.py:10-25 | the default settings (`Config.Defaults`, the field defaults of `Settings`) yield exactly the two localhost origins, 3000 then 8080 |
| Config.SpacedCorsOrigins | backend/app/config.py:23-25 | `" http://a.io , http://b.io"` yields exactly `http://a.io` then `http://b.io` |
| Config.EmptyCorsOrigins | backend/app/config.py:25 | an empty setting yields one empty origin, not an empty list |
| Text.Strip | backend/app/config.py:25 | the stripped string is a contiguous piece of the input, with only whitespace cut from either side, and starts and ends with non-whitespace |
| Text.StripPadded | backend/app/config.py:25 | a string without surrounding whitespace, padded with any whitespace on either side, strips back to itself |
| Text.StripTrimmed | backend/app/config.py:25 | stripping a string without surrounding whitespace changes nothing |
| Text.Split | backend/app/config.py:25 | splitting at a separator gives one piece per separator plus one, none holding the separator |
| Text.JoinSplit | backend/app/config.py:25 | joining the pieces of a split with the separator restores the string |
| Text.SplitJoin | backend/app/config.py:25 | splitting the join of a non-empty list of separator-free pieces restores the pieces |
| Text.ConcatAppend | backend/app/routers/chat.py:48-50 | accumulating a reply chunk by chunk equals concatenating the parts' accumulations |
| Store.GetConversations | backend/app/services/firestore_service.py:21-32 | the listing holds the user's conversations as a multiset, each once with its id, ordered by updatedAt descending |
| Store.ListedOnce | backend/app/services/firestore_service.py:21-32 | such a listing names every conversation, each with its own document, and no id twice |
| Store.GetConversation | backend/app/services/firestore_service.py:34-39 | None exactly for an absent id, otherwise that document |
| Store.CreateConversation | backend/app/services/firestore_service.py:41-55 | the new document has the given title, count 0 and createdAt == updatedAt == now; only that document changes; other users are untouched |
| Store.UpdateConversation | backend/app/services/firestore_service.py:57-76 | updatedAt is always refreshed; the title changes only for a non-empty title; the count rises by exactly one only when asked; other fields and documents are unchanged; a missing document raises and nothing is written |
| Store.GetMessages | backend/app/services/firestore_service.py:80-102 | at most `limit` messages: the first ones stored, in stored order, and all of them when fewer exist; in a consistent store these are the oldest, in creation order (see `StoreInvariants.GetMessagesChronological`) |
| Store.AddMessage | backend/app/services/firestore_service.py:104-133 | appends one message with the role, content and current instant; raises the conversation's count by one; a missing conversation raises after the message is written |
| Store.GetMoodsInRange | backend/app/services/firestore_service.py:137-160 | exactly the stored entries with start <= date <= end, each as often as stored, in ascending date order |
| Store.MoodsInRangeCount | backend/app/services/firestore_service.py:146-160 | the query returns as many entries as are stored within the range, counted independently |
| Sequences.SortBy | backend/app/services/firestore_service.py:150 | the result is a permutation of the input, ordered by the key |
| Sequences.Take | backend/app/services/firestore_service.py:94 | `limit(n)` keeps a prefix of length min(n, size) |
| StoreInvariants.CreatePreservesValid | backend/app/services/firestore_service.py:41-55 | creating under a fresh id keeps every count equal to its stored messages and every stamp ordered |
| StoreInvariants.RetitlePreservesValid | backend/app/services/firestore_service.py:57-72 | a retitle keeps the store consistent |
| StoreInvariants.AddMessagePreservesValid | backend/app/services/firestore_service.py:104-133 | adding a message keeps the count equal to the stored messages and the messages in creation order |
| StoreInvariants.GetMessagesChronological | backend/app/services/firestore_service.py:94 | in a consistent store, messages come back in strictly ascending creation order |
| StoreInvariants.HistoryRoundTrip | backend/app/services/firestore_service.py:80-133 | messages added one after another come back from get_messages after the earlier ones, in order, with role, content and id |
| StoreInvariants.CountRoundTrip | backend/app/services/firestore_service.py:104-133 | each added message raises the conversation's count by exactly one |
| Gemini.SpeakerOf | backend/app/services/gemini_service.py:48 | role "user" maps to the user turn; every other role maps to the model turn |
| Gemini.HistoryTurns | backend/app/services/gemini_service.py:46-52 | one turn per history entry, in order, with its content and mapped role |
| Gemini.BuildContents | backend/app/services/gemini_service.py:32-58 | the prompt has history + 3 turns: "System: " + prompt, the fixed acknowledgment, every history entry in order, then the message as a user turn |
| Gemini.ContentsRoundTrip | backend/app/services/gemini_service.py:46-52 | the prompt's middle turns read back to exactly the history the relay stored |
| Gemini.NonEmptyChunks | backend/app/services/gemini_service.py:71-73 | only non-empty chunks pass, and together they carry the same text as the raw stream |
| Gemini.NonEmptyChunksAppend | backend/app/services/gemini_service.py:71-73 | filtering a stream in two parts filters each part, so arrival order is kept |
| Gemini.NonEmptyChunksKeep | backend/app/services/gemini_service.py:71-73 | a stream of non-empty chunks passes unchanged |
| Gemini.MoodSummaryLines | backend/app/services/gemini_service.py:122-125 | min(10, n) lines built from the first entries in the given order; a missing note reads "no note" |
| Gemini.MoodSummary | backend/app/services/gemini_service.py:122-125 | for non-empty data, splitting the newline-joined summary gives back its lines when no line holds a newline |
| Gemini.SummaryOmitsNewest | backend/app/services/gemini_service.py:122-125 | with more than ten date-ordered entries and distinct dates of equal length, no line describes the newest entry |
| Gemini.RecentMoodSummaryLines | backend/app/services/gemini_service.py:122-125 | the corrected summary: the last min(10, n) entries, oldest of them first |
| Gemini.SummariesAgreeWithinLimit | backend/app/services/gemini_service.py:122-125 | for up to ten entries, the written and the corrected summary are the same |
| Gemini.RecentSummaryEndsWithNewest | backend/app/services/gemini_service.py:122-125 | the corrected summary always ends with the newest entry |
| Gemini.EphemeralToken | backend/app/services/gemini_service.py:150-177 | expires exactly ten minutes after now; the token is the configured key; the URL ends with the live model's name |
| Chat.Title | backend/app/routers/chat.py:61 | a message of up to 50 characters is its own title; a longer one gives its first 50 characters plus "..." (53 in all) |
| Chat.TitleIsMessage | backend/app/routers/chat.py:61 | the title equals the message iff the message has at most 50 characters, or is 53 characters ending in "..." |
| Chat.TitleOfValidMessage | backend/app/routers/chat.py:59-62 | a valid message gives a non-empty title, so the update does write it |
| Chat.Answer | backend/app/routers/chat.py:47-64 | after the user message: the reply is stored under the assistant id with the streamed text; the count rises by one; the title becomes the message's title iff the history was empty and the message is non-empty; `updatedAt` is refreshed to the instant of the last write; other conversations, their messages and the moods are unchanged |
| Chat.Relay | backend/app/routers/chat.py:21-64 | fails iff a given conversation id is missing, after saving only the user message and emitting nothing; on that failure the user message stays stored under the missing id, the conversation records and moods are untouched; otherwise the trace opens, saves the user message, then answers; other users are untouched |
| Chat.AnswerStepsIo | backend/app/routers/chat.py:47-64 | the answer emits one chunk per fragment then done with the assistant id, and saves only the concatenated reply |
| Chat.AnswerStepsRetitle | backend/app/routers/chat.py:58-62 | the answer retitles iff the history was empty, and only with the message's title |
| Chat.RelayEvents | backend/app/routers/chat.py:38-64 | a completed relay emits the new id (only when none was given), one chunk per non-empty fragment in order, then done |
| Chat.RelaySaves | backend/app/routers/chat.py:44-56 | exactly two saves: the user message, then the assistant's reply |
| Chat.RelaySavesBursts | backend/app/routers/chat.py:48-56 | a model stream arriving as two bursts is stored as the first burst's text followed by the second's |
| Chat.RelayStreamedText | backend/app/routers/chat.py:48-51 | the chunk events carry exactly the concatenated reply |
| Chat.RelayPersists | backend/app/routers/chat.py:44-56 | the conversation gains exactly the user message and then the reply, stamped in that order |
| Chat.RelayStreamIsStored | backend/app/routers/chat.py:48-64 | the streamed text is the stored reply, directly after the user message, and done names its id |
| Chat.RelaySavesUserFirst | backend/app/routers/chat.py:44-51 | the user message is saved before the model is asked and before any chunk, even when the relay fails |
| Chat.RelayTitle | backend/app/routers/chat.py:58-62 | the conversation is retitled iff the history read was empty; otherwise the title stays |
| Chat.RelayCount | backend/app/routers/chat.py:44-56 | a completed relay raises the conversation's count by two |
| Chat.NewConversationAnnounced | backend/app/routers/chat.py:38-42 | without an id, the relay completes and its first event is the new conversation's id |
| Chat.NewConversationTitled | backend/app/routers/chat.py:38-62 | a new conversation ends with the message's title and a count of 2 |
| Chat.RelayPreservesValid | backend/app/routers/chat.py:38-62 | the relay keeps the store consistent, given a fresh id for a created conversation |
| Chat.RelayIsolation | backend/app/routers/chat.py:21-64 | other conversations, their messages and the moods are unchanged |
| Chat.SendMessage | backend/app/routers/chat.py:67-91 | 422 iff the message length is invalid; otherwise the relay runs on the request |
| Chat.ListConversations | backend/app/routers/chat.py:94-112 | every conversation once, newest update first, with "Untitled" and 0 for a missing title or count |
| Chat.ToApiMessages | backend/app/routers/chat.py:134-142 | building the response succeeds iff every stored role is an enum value, and keeps id, role, content and stamp |
| Chat.GetConversationHistory | backend/app/routers/chat.py:115-143 | 404 "Conversation not found" iff the conversation is missing; success iff it exists and each of its oldest 50 messages has role user or assistant, else 500; on success the oldest 50 messages in order with id, role, content and creation time kept |
| Chat.HistoryOfExchange | backend/app/routers/chat.py:130-143 | a conversation holding a question and a reply shows both, as user then assistant |
| Chat.NewConversationHistory | backend/app/routers/chat.py:115-143 | after a relay starts a conversation, its history is exactly the user message and the reply, under their ids |
| Mood.CalculateTrend | backend/app/routers/mood.py:18-21 | fewer than two scores are always stable |
| Mood.HalvesSplit | backend/app/routers/mood.py:24-26 | with two or more scores, both halves are non-empty, the second holds the extra entry, and together they are the series |
| Mood.ClassifyBands | backend/app/routers/mood.py:31-38 | improving iff diff > 0.3, declining iff diff < -0.3, stable otherwise; exactly ±0.3 is stable |
| Mood.TrendByTotals | backend/app/routers/mood.py:24-38 | an independent division-free statement: improving iff a·ΣB − b·ΣA > 0.3·a·b, and declining iff it is below −0.3·a·b |
| Mood.ConstantIsStable | backend/app/routers/mood.py:28-38 | equal scores are stable |
| Mood.ShiftKeepsTrend | backend/app/routers/mood.py:24-38 | adding the same amount to every score leaves the trend unchanged |
| Mood.NegateFlipsTrend | backend/app/routers/mood.py:31-38 | negating the scores swaps improving and declining |
| Mood.SeparatedHalvesImprove | backend/app/routers/mood.py:28-34 | when every later score exceeds every earlier one by more than 0.3, the trend is improving |
| Mood.TrendExamples | backend/app/routers/mood.py:18-38 | [1,1,5,5] improves, [5,5,1] declines, [3,3.2] and [3] are stable |
| Mood.AnalyzeMoodPatterns | backend/app/routers/mood.py:41-119 | 400 with its own detail iff a date fails to parse, and iff start > end; it succeeds iff start <= end; the entry count is the stored entries in range; an empty range gives 0.0, 0, stable and the fixed insight with no model call; otherwise the insight is the model's answer to the reported figures |
| Mood.AnalysisFigures | backend/app/routers/mood.py:87-109 | the average is the mean of the range's scores, the trend is their trend, and the model gets the entries in date order |
| Mood.AverageWithinScores | backend/app/routers/mood.py:88-89 | the reported average lies within any bounds of the scores in range |
| Mood.EvenScoresAreStable | backend/app/routers/mood.py:88-90 | a range whose entries share one score reports stable |
| Mood.NotesAlwaysSupplied | backend/app/routers/mood.py:93-100 | every entry reaches the model with a note, empty when none was stored |
| Mood.SummaryShowsEarliest | backend/app/services/gemini_service.py:122-125 | the prompt summary shows the range's earliest entries: each shown entry is dated no later than each left out |
| Mood.RecentSummaryShowsLatest | backend/app/services/gemini_service.py:122-125 | the corrected summary shows the latest entries: each left-out entry is dated no later than each shown |

## Left out

- Authentication (`dependencies.py`, `routers/auth.py`): token verification is an SDK call. Every operation takes the uid it would yield.
- `main.py` wiring: the CORS middleware allows `["*"]` and never reads the `cors_origins` list modelled here.
- `routers/voice.py` and `routers/journal.py`: they pass a service result through. The journal insight prompt is model I/O and is not modelled; only its request bounds are.
- Gemini calls and generation settings: the model is the `respond` and `generate` parameters. Prompt texts other than the system-prompt prefix and the acknowledgment are opaque strings.
- Chat.Relay: the Server-Sent Events JSON framing and headers are not modelled; events are a datatype.
- Chat.Relay: client disconnects mid-stream, async scheduling and concurrent requests are not modelled. In particular, concurrent appends to one conversation are not modelled: the count update and the increment are two separate writes.
- Chat.Relay: an exception raised by the model stream is not modelled. Only the store error is modelled, and it can arise only at the first write.
- Store.GetMessages: messages are kept in the order they were stored, and the query returns them in that order rather than sorting by `createdAt` (firestore_service.py:94). The two agree in every store satisfying `StoreInvariants.Valid`, which every write keeps. For a store whose stamps are out of order, the model answers in stored order, not sorted.
- Store: document ids are parameters, and the invariant lemmas assume a fresh conversation id. Id collisions are not modelled.
- Store: `utcnow` is a logical clock with strictly increasing reads, so timestamp ties and Firestore's order among equal keys are not modelled. For conversations with equal `updatedAt`, the listing fixes only the order by `updatedAt`.
- Store.GetMoodsInRange: dates are integers; `datetime` comparison across time zones is not modelled.
- Mood.AnalyzeMoodPatterns: means are exact reals. Float rounding, `round(average_score, 2)` and IEEE behaviour at the ±0.3 boundary are not modelled.
- Mood.AnalyzeMoodPatterns: `fromisoformat` parsing and `strftime` rendering are the `parseDate` and `showDate` parameters.
- Gemini.EphemeralToken: the expiry is an integer count of microseconds on the clock parameter, not the `isoformat() + "Z"` string of `gemini_service.py:175`.
- Mood.AnalyzeMoodPatterns: comparing a naive date with a zone-aware one raises `TypeError` at `routers/mood.py:62`, which the server answers with 500. Dates are integers here, so that answer is not modelled.
- Gemini.MoodSummaryLines: the rendering of each entry's score (`{m['score']}`, gemini_service.py:123) is the `showScore` parameter. The prompt's header lines, including the average formatted with `:.1f` (gemini_service.py:131), are not modelled.
- Chat.GetConversationHistory: the 500 answer's body text is FastAPI's and is not modelled beyond its status.

## Findings

| source | as written | input that shows it | evidently intended | confidence | as-written member | corrected member |
|---|---|---|---|---|---|---|
| backend/app/services/gemini_service.py:122-125 | `mood_data[:10]` keeps the first ten entries of the date-ordered list, that is, the oldest ones | eleven entries dated 2024-01-01 to 2024-01-11: the summary lists days 1 to 10 and leaves out 2024-01-11, the newest | the ten most recent entries, as the comment "Limit to last 10 entries" and the prompt's "Recent Entries" heading say | medium, not executed | Gemini.SummaryOmitsNewest | Gemini.RecentMoodSummaryLines |

=== FILE: chat.dfy ===
/**
 * The chat router: the streaming relay behind `POST /api/chat/message`, the
 * conversation list and the history lookup.
 *
 * The relay is a function of the store, the request and the model's chunk
 * stream. Its observable behaviour is a trace of steps: store writes, the
 * prompt sent to the model, and the Server-Sent Events emitted, in order.
 */
module Chat {
  import opened Wrappers
  import opened Schemas
  import opened Store
  import StoreInvariants
  import Gemini
  import Text

  /** One Server-Sent Event; its JSON encoding is not modelled. */
  datatype Event =
    | ConversationIdEvent(value: string)
    | ChunkEvent(value: string)
    | DoneEvent(messageId: string)

  /** What the relay does, in the order it does it. */
  datatype Step =
    | Created(conversationId: string)
    | Saved(role: string, content: string)
    | Asked(contents: seq<Gemini.Turn>)
    | Emitted(event: Event)
    | Retitled(title: string)

  /** The document ids the store generates during one request. */
  datatype FreshIds = FreshIds(conversation: string, userMessage: string, assistantMessage: string)

  /** A finished relay: its steps, the resulting store, and the error that stopped it, if any. */
  datatype RelayRun = RelayRun(trace: seq<Step>, store: Store, failure: Option<StoreError>)

  const TitleLimit := 50
  const Ellipsis := "..."

  /** A conversation title: the message itself, or its first 50 characters and "...". */
  function Title(message: string): (t: string)
    ensures |t| <= TitleLimit + |Ellipsis|
    ensures |message| <= TitleLimit ==> t == message
    ensures |message| > TitleLimit ==> |t| == TitleLimit + |Ellipsis| && t[..TitleLimit] == message[..TitleLimit]
    ensures |message| > TitleLimit ==> t[TitleLimit..] == Ellipsis
  {
    if |message| > TitleLimit then message[..TitleLimit] + Ellipsis else message
  }

  /**
   * The title equals the message exactly when the message was short enough,
   * or when it is 53 characters whose last three are already "...".
   */
  lemma TitleIsMessage(message: string)
    ensures Title(message) == message <==>
              |message| <= TitleLimit || (|message| == TitleLimit + |Ellipsis| && message[TitleLimit..] == Ellipsis)
  {
    if |message| > TitleLimit && |message| == TitleLimit + |Ellipsis| && message[TitleLimit..] == Ellipsis {
      assert message == message[..TitleLimit] + message[TitleLimit..];
    }
  }

  /** A valid chat message gives a non-empty title, which the store then writes. */
  lemma TitleOfValidMessage(message: string)
    requires NewChatMessageRequest(None, message).Success?
    ensures Text.Truthy(Some(Title(message)))
  {
  }

  // ============ Traces ============

  /** The events a trace emits, in order. */
  function Events(trace: seq<Step>): seq<Event>
  {
    if |trace| == 0 then []
    else (if trace[0].Emitted? then [trace[0].event] else []) + Events(trace[1..])
  }

  /** The messages a trace saves, as (role, content), in order. */
  function Saves(trace: seq<Step>): seq<(string, string)>
  {
    if |trace| == 0 then []
    else (if trace[0].Saved? then [(trace[0].role, trace[0].content)] else []) + Saves(trace[1..])
  }

  lemma {:induction false} EventsAppend(a: seq<Step>, b: seq<Step>)
    ensures Events(a + b) == Events(a) + Events(b)
  {
    if |a| > 0 {
      assert (a + b)[1..] == a[1..] + b;
      EventsAppend(a[1..], b);
    } else {
      assert a + b == b;
    }
  }

  lemma {:induction false} SavesAppend(a: seq<Step>, b: seq<Step>)
    ensures Saves(a + b) == Saves(a) + Saves(b)
  {
    if |a| > 0 {
      assert (a + b)[1..] == a[1..] + b;
      SavesAppend(a[1..], b);
    } else {
      assert a + b == b;
    }
  }

  function ChunkSteps(chunks: seq<string>): seq<Step> {
    seq(|chunks|, i requires 0 <= i < |chunks| => Emitted(ChunkEvent(chunks[i])))
  }

  function ChunkEvents(chunks: seq<string>): seq<Event> {
    seq(|chunks|, i requires 0 <= i < |chunks| => ChunkEvent(chunks[i]))
  }

  /** The text a client assembles from the chunk events it received. */
  function StreamedText(events: seq<Event>): string {
    if |events| == 0 then ""
    else (if events[0].ChunkEvent? then events[0].value else "") + StreamedText(events[1..])
  }

  /** Emitting one chunk step per fragment emits one chunk event per fragment, and saves nothing. */
  lemma {:induction false} ChunkStepsEmit(chunks: seq<string>)
    ensures Events(ChunkSteps(chunks)) == ChunkEvents(chunks)
    ensures Saves(ChunkSteps(chunks)) == []
  {
    if |chunks| > 0 {
      ChunkStepsEmit(chunks[1..]);
      assert ChunkSteps(chunks)[1..] == ChunkSteps(chunks[1..]);
      assert ChunkEvents(chunks) == [ChunkEvent(chunks[0])] + ChunkEvents(chunks[1..]);
    }
  }

  /** The chunk events of a fragment list carry exactly the fragments' text. */
  lemma {:induction false} StreamedTextOfChunks(chunks: seq<string>)
    ensures StreamedText(ChunkEvents(chunks)) == Text.Concat(chunks)
  {
    if |chunks| > 0 {
      StreamedTextOfChunks(chunks[1..]);
      assert ChunkEvents(chunks)[1..] == ChunkEvents(chunks[1..]);
    }
  }

  lemma {:induction false} StreamedTextAppend(a: seq<Event>, b: seq<Event>)
    ensures StreamedText(a + b) == StreamedText(a) + StreamedText(b)
  {
    if |a| > 0 {
      assert (a + b)[1..] == a[1..] + b;
      StreamedTextAppend(a[1..], b);
    } else {
      assert a + b == b;
    }
  }

  // ============ The relay ============

  /** The history a stored message contributes: its role and content. */
  function HistoryOf(messages: seq<MessageDoc>): (r: seq<Gemini.HistoryEntry>)
    ensures |r| == |messages|
    ensures forall i | 0 <= i < |r| :: r[i].role == messages[i].role && r[i].content == messages[i].content
  {
    seq(|messages|, i requires 0 <= i < |messages| => Gemini.HistoryEntry(messages[i].role, messages[i].content))
  }

  /** The conversation a request continues: a given non-empty id, else the freshly created one. */
  function ConversationFor(conversationId: Option<string>, ids: FreshIds): string {
    if Text.Truthy(conversationId) then conversationId.value else ids.conversation
  }

  /** History handed to the model: the oldest 50 messages of a continued conversation, else none. */
  function HistoryFor(st: Store, uid: string, conversationId: Option<string>): seq<Gemini.HistoryEntry> {
    if Text.Truthy(conversationId) then
      HistoryOf(GetMessages(st, uid, conversationId.value, DefaultMessageLimit))
    else []
  }

  /** The steps before the user message is saved: creation and its announcement, if any. */
  function OpeningSteps(conversationId: Option<string>, ids: FreshIds): seq<Step> {
    if Text.Truthy(conversationId) then []
    else [Created(ids.conversation), Emitted(ConversationIdEvent(ids.conversation))]
  }

  function OpeningEvents(conversationId: Option<string>, ids: FreshIds): seq<Event> {
    if Text.Truthy(conversationId) then [] else [ConversationIdEvent(ids.conversation)]
  }

  /** The store once the conversation is opened: unchanged, or with the new conversation. */
  function Opened(st: Store, uid: string, conversationId: Option<string>, ids: FreshIds): Store {
    if Text.Truthy(conversationId) then st
    else CreateConversation(st, uid, ids.conversation, DefaultTitle).0
  }

  /** The fragments the relay streams for a prompt: the model's chunks, empty ones dropped. */
  function Reply(systemPrompt: string, message: string, history: seq<Gemini.HistoryEntry>,
                 respond: seq<Gemini.Turn> -> seq<string>): seq<string> {
    Gemini.NonEmptyChunks(respond(Gemini.BuildContents(systemPrompt, message, history)))
  }

  function ReplyChunks(st: Store, uid: string, conversationId: Option<string>, message: string,
                       systemPrompt: string, respond: seq<Gemini.Turn> -> seq<string>): seq<string> {
    Reply(systemPrompt, message, HistoryFor(st, uid, conversationId), respond)
  }

  /** The steps after the assistant message is saved: the retitle for a fresh history, then done. */
  function ClosingSteps(historyEmpty: bool, message: string, ids: FreshIds): seq<Step> {
    (if historyEmpty then [Retitled(Title(message))] else []) + [Emitted(DoneEvent(ids.assistantMessage))]
  }

  /** The steps of the relay after the user message is saved, as the model and history determine them. */
  function AnswerSteps(message: string, history: seq<Gemini.HistoryEntry>, ids: FreshIds, systemPrompt: string,
                       respond: seq<Gemini.Turn> -> seq<string>): seq<Step> {
    var chunks := Reply(systemPrompt, message, history, respond);
    [Asked(Gemini.BuildContents(systemPrompt, message, history))] + ChunkSteps(chunks)
    + [Saved("assistant", Text.Concat(chunks))] + ClosingSteps(|history| == 0, message, ids)
  }

  /**
   * The relay once the user message is stored in an existing conversation:
   * ask the model, stream its reply, store the reply, retitle a conversation
   * whose history was empty, and finish. None of these writes can fail.
   */
  function Answer(st: Store, uid: string, cid: string, message: string, history: seq<Gemini.HistoryEntry>,
                  ids: FreshIds, systemPrompt: string, respond: seq<Gemini.Turn> -> seq<string>): (r: RelayRun)
    requires cid in Conversations(st, uid)
    ensures r.failure.None?
    ensures r.trace == AnswerSteps(message, history, ids, systemPrompt, respond)
    ensures Messages(r.store, uid, cid) ==
              Messages(st, uid, cid) +
              [MessageDoc(ids.assistantMessage, "assistant", Text.Concat(Reply(systemPrompt, message, history, respond)), st.clock)]
    ensures forall other | other != cid :: Messages(r.store, uid, other) == Messages(st, uid, other)
    ensures Conversations(r.store, uid).Keys == Conversations(st, uid).Keys
    ensures var before := Conversations(st, uid)[cid];
            var after := Conversations(r.store, uid)[cid];
            && after.messageCount == Some(before.messageCount.GetOr(0) + 1)
            && after.createdAt == before.createdAt
            && after.title == (if |history| == 0 && message != "" then Some(Title(message)) else before.title)
            && after.updatedAt == st.clock + (if |history| == 0 then 2 else 1)
    ensures forall other | other in Conversations(st, uid) && other != cid ::
              Conversations(r.store, uid)[other] == Conversations(st, uid)[other]
    ensures UserOf(r.store, uid).moods == UserOf(st, uid).moods
    ensures r.store.clock > st.clock
    ensures OthersUnchanged(st, r.store, uid)
  {
    var reply := Text.Concat(Reply(systemPrompt, message, history, respond));
    var replySave := AddMessage(st, uid, cid, "assistant", reply, ids.assistantMessage);
    var trace := AnswerSteps(message, history, ids, systemPrompt, respond);
    if |history| == 0 then
      RelayRun(trace, UpdateConversation(replySave.store, uid, cid, Some(Title(message)), false).store, None)
    else
      RelayRun(trace, replySave.store, None)
  }

  /**
   * `generate_sse_stream`. `respond` stands for the model: given the prompt
   * it yields raw chunk texts. A store error stops the relay where it occurs;
   * only the first write can meet one, when the given conversation is missing,
   * and the user message that write stored under the missing id stays.
   */
  function Relay(st: Store, uid: string, conversationId: Option<string>, message: string,
                 ids: FreshIds, systemPrompt: string, respond: seq<Gemini.Turn> -> seq<string>): (r: RelayRun)
    ensures OthersUnchanged(st, r.store, uid)
    ensures r.failure.Some? <==>
              Text.Truthy(conversationId) && conversationId.value !in Conversations(st, uid)
    ensures r.failure.Some? ==> r.trace == [Saved("user", message)] && Events(r.trace) == []
    ensures r.failure.Some? ==>
              && Messages(r.store, uid, conversationId.value) ==
                   Messages(st, uid, conversationId.value) + [MessageDoc(ids.userMessage, "user", message, st.clock)]
              && Conversations(r.store, uid) == Conversations(st, uid)
              && UserOf(r.store, uid).moods == UserOf(st, uid).moods
    ensures r.failure.None? ==>
              r.trace == OpeningSteps(conversationId, ids) + [Saved("user", message)]
                         + AnswerSteps(message, HistoryFor(st, uid, conversationId), ids, systemPrompt, respond)
  {
    var cid := ConversationFor(conversationId, ids);
    var afterUser := OpeningSteps(conversationId, ids) + [Saved("user", message)];
    var userSave := AddMessage(Opened(st, uid, conversationId, ids), uid, cid, "user", message, ids.userMessage);
    if userSave.result.Failure? then
      assert Events(afterUser) == [] by {
        assert afterUser == [Saved("user", message)];
      }
      RelayRun(afterUser, userSave.store, Some(userSave.result.error))
    else
      var answer := Answer(userSave.store, uid, cid, message, HistoryFor(st, uid, conversationId), ids, systemPrompt, respond);
      RelayRun(afterUser + answer.trace, answer.store, None)
  }

  // ============ What the relay guarantees ============

  /** The answer emits one chunk per streamed fragment and then done; it saves only the reply. */
  lemma AnswerStepsIo(message: string, history: seq<Gemini.HistoryEntry>, ids: FreshIds, systemPrompt: string,
                      respond: seq<Gemini.Turn> -> seq<string>)
    ensures var chunks := Reply(systemPrompt, message, history, respond);
            var steps := AnswerSteps(message, history, ids, systemPrompt, respond);
            && Events(steps) == ChunkEvents(chunks) + [DoneEvent(ids.assistantMessage)]
            && Saves(steps) == [("assistant", Text.Concat(chunks))]
  {
    var chunks := Reply(systemPrompt, message, history, respond);
    var asked := [Asked(Gemini.BuildContents(systemPrompt, message, history))];
    var saved := [Saved("assistant", Text.Concat(chunks))];
    var retitle: seq<Step> := if |history| == 0 then [Retitled(Title(message))] else [];
    var done := [Emitted(DoneEvent(ids.assistantMessage))];
    var closing := ClosingSteps(|history| == 0, message, ids);
    ChunkStepsEmit(chunks);
    EventsAppend(asked + ChunkSteps(chunks) + saved, closing);
    EventsAppend(asked + ChunkSteps(chunks), saved);
    EventsAppend(asked, ChunkSteps(chunks));
    EventsAppend(retitle, done);
    SavesAppend(asked + ChunkSteps(chunks) + saved, closing);
    SavesAppend(asked + ChunkSteps(chunks), saved);
    SavesAppend(asked, ChunkSteps(chunks));
    SavesAppend(retitle, done);
  }

  /** The answer retitles the conversation exactly when the history was empty, and only with the message's title. */
  lemma AnswerStepsRetitle(message: string, history: seq<Gemini.HistoryEntry>, ids: FreshIds, systemPrompt: string,
                           respond: seq<Gemini.Turn> -> seq<string>)
    ensures var steps := AnswerSteps(message, history, ids, systemPrompt, respond);
            && (Retitled(Title(message)) in steps <==> |history| == 0)
            && (forall k | 0 <= k < |steps| && steps[k].Retitled? :: steps[k].title == Title(message))
  {
    var chunks := Reply(systemPrompt, message, history, respond);
    var body := [Asked(Gemini.BuildContents(systemPrompt, message, history))] + ChunkSteps(chunks)
                + [Saved("assistant", Text.Concat(chunks))];
    var steps := AnswerSteps(message, history, ids, systemPrompt, respond);
    assert forall k | 0 <= k < |body| :: !body[k].Retitled?;
    assert steps == body + ClosingSteps(|history| == 0, message, ids);
    if |history| == 0 {
      assert steps[|body|] == Retitled(Title(message));
    }
  }

  /** A relay trace emits its opening events, then whatever the rest of it emits. */
  lemma OpeningEventsThen(conversationId: Option<string>, ids: FreshIds, message: string, rest: seq<Step>)
    ensures Events(OpeningSteps(conversationId, ids) + [Saved("user", message)] + rest) ==
              OpeningEvents(conversationId, ids) + Events(rest)
  {
    var opening := OpeningSteps(conversationId, ids);
    EventsAppend(opening + [Saved("user", message)], rest);
    EventsAppend(opening, [Saved("user", message)]);
    assert Events([Saved("user", message)]) == [];
    assert Events(opening) == OpeningEvents(conversationId, ids);
  }

  /** A relay trace saves the user's message, then whatever the rest of it saves. */
  lemma OpeningSavesThen(conversationId: Option<string>, ids: FreshIds, message: string, rest: seq<Step>)
    ensures Saves(OpeningSteps(conversationId, ids) + [Saved("user", message)] + rest) ==
              [("user", message)] + Saves(rest)
  {
    var opening := OpeningSteps(conversationId, ids);
    SavesAppend(opening + [Saved("user", message)], rest);
    SavesAppend(opening, [Saved("user", message)]);
    assert Saves([Saved("user", message)]) == [("user", message)];
    assert Saves(opening) == [];
  }

  /**
   * The events of a completed relay: the new conversation's id when one was
   * created, then one chunk per non-empty model fragment, then done with the
   * assistant message's id.
   */
  lemma RelayEvents(st: Store, uid: string, conversationId: Option<string>, message: string,
                    ids: FreshIds, systemPrompt: string, respond: seq<Gemini.Turn> -> seq<string>)
    requires Relay(st, uid, conversationId, message, ids, systemPrompt, respond).failure.None?
    ensures Events(Relay(st, uid, conversationId, message, ids, systemPrompt, respond).trace) ==
              OpeningEvents(conversationId, ids)
              + ChunkEvents(ReplyChunks(st, uid, conversationId, message, systemPrompt, respond))
              + [DoneEvent(ids.assistantMessage)]
  {
    var history := HistoryFor(st, uid, conversationId);
    var rest := AnswerSteps(message, history, ids, systemPrompt, respond);
    AnswerStepsIo(message, history, ids, systemPrompt, respond);
    OpeningEventsThen(conversationId, ids, message, rest);
  }

  /** A completed relay saves exactly two messages: the user's, then the streamed reply. */
  lemma RelaySaves(st: Store, uid: string, conversationId: Option<string>, message: string,
                   ids: FreshIds, systemPrompt: string, respond: seq<Gemini.Turn> -> seq<string>)
    requires Relay(st, uid, conversationId, message, ids, systemPrompt, respond).failure.None?
    ensures Saves(Relay(st, uid, conversationId, message, ids, systemPrompt, respond).trace) ==
              [("user", message),
               ("assistant", Text.Concat(ReplyChunks(st, uid, conversationId, message, systemPrompt, respond)))]
  {
    var history := HistoryFor(st, uid, conversationId);
    var rest := AnswerSteps(message, history, ids, systemPrompt, respond);
    AnswerStepsIo(message, history, ids, systemPrompt, respond);
    OpeningSavesThen(conversationId, ids, message, rest);
  }

  /**
   * However the model's stream is cut into bursts, `full_response += chunk`
   * stores the first burst's text followed by the second's.
   */
  lemma RelaySavesBursts(st: Store, uid: string, conversationId: Option<string>, message: string,
                         ids: FreshIds, systemPrompt: string, respond: seq<Gemini.Turn> -> seq<string>,
                         first: seq<string>, second: seq<string>)
    requires Relay(st, uid, conversationId, message, ids, systemPrompt, respond).failure.None?
    requires respond(Gemini.BuildContents(systemPrompt, message, HistoryFor(st, uid, conversationId))) == first + second
    ensures Saves(Relay(st, uid, conversationId, message, ids, systemPrompt, respond).trace) ==
              [("user", message), ("assistant", Text.Concat(first) + Text.Concat(second))]
  {
    RelaySaves(st, uid, conversationId, message, ids, systemPrompt, respond);
    Text.ConcatAppend(first, second);
  }

  /** What a client assembles from a completed relay's chunks is the model's whole reply, and done comes last. */
  lemma RelayStreamedText(st: Store, uid: string, conversationId: Option<string>, message: string,
                          ids: FreshIds, systemPrompt: string, respond: seq<Gemini.Turn> -> seq<string>)
    requires Relay(st, uid, conversationId, message, ids, systemPrompt, respond).failure.None?
    ensures var events := Events(Relay(st, uid, conversationId, message, ids, systemPrompt, respond).trace);
            && |events| > 0
            && events[|events| - 1] == DoneEvent(ids.assistantMessage)
            && StreamedText(events) == Text.Concat(ReplyChunks(st, uid, conversationId, message, systemPrompt, respond))
  {
    var chunks := ReplyChunks(st, uid, conversationId, message, systemPrompt, respond);
    var opening := OpeningEvents(conversationId, ids);
    RelayEvents(st, uid, conversationId, message, ids, systemPrompt, respond);
    StreamedTextAppend(opening + ChunkEvents(chunks), [DoneEvent(ids.assistantMessage)]);
    StreamedTextAppend(opening, ChunkEvents(chunks));
    StreamedTextOfChunks(chunks);
    assert StreamedText(opening) == "";
  }

  /**
   * A completed relay appends exactly two messages to its conversation: the
   * user's message, then the assistant's reply, stamped in that order.
   */
  lemma RelayPersists(st: Store, uid: string, conversationId: Option<string>, message: string,
                      ids: FreshIds, systemPrompt: string, respond: seq<Gemini.Turn> -> seq<string>)
    requires Relay(st, uid, conversationId, message, ids, systemPrompt, respond).failure.None?
    ensures var r := Relay(st, uid, conversationId, message, ids, systemPrompt, respond);
            var entered := Opened(st, uid, conversationId, ids);
            var cid := ConversationFor(conversationId, ids);
            var reply := Text.Concat(ReplyChunks(st, uid, conversationId, message, systemPrompt, respond));
            Messages(r.store, uid, cid) ==
              Messages(entered, uid, cid) +
              [MessageDoc(ids.userMessage, "user", message, entered.clock),
               MessageDoc(ids.assistantMessage, "assistant", reply, entered.clock + 2)]
  {
    var entered := Opened(st, uid, conversationId, ids);
    var cid := ConversationFor(conversationId, ids);
    var history := HistoryFor(st, uid, conversationId);
    var userSave := AddMessage(entered, uid, cid, "user", message, ids.userMessage);
    assert userSave.result.Success?;
    var answer := Answer(userSave.store, uid, cid, message, history, ids, systemPrompt, respond);
    assert Relay(st, uid, conversationId, message, ids, systemPrompt, respond).store == answer.store;
  }

  /**
   * The reply a client streamed is the reply stored, under the id the done
   * event names, directly after the user's message.
   */
  lemma RelayStreamIsStored(st: Store, uid: string, conversationId: Option<string>, message: string,
                            ids: FreshIds, systemPrompt: string, respond: seq<Gemini.Turn> -> seq<string>)
    requires Relay(st, uid, conversationId, message, ids, systemPrompt, respond).failure.None?
    ensures var r := Relay(st, uid, conversationId, message, ids, systemPrompt, respond);
            var events := Events(r.trace);
            var ms := Messages(r.store, uid, ConversationFor(conversationId, ids));
            && |ms| >= 2 && |events| > 0
            && ms[|ms| - 2].role == "user" && ms[|ms| - 2].content == message
            && ms[|ms| - 1].role == "assistant"
            && ms[|ms| - 1].content == StreamedText(events)
            && events[|events| - 1] == DoneEvent(ms[|ms| - 1].id)
  {
    RelayStreamedText(st, uid, conversationId, message, ids, systemPrompt, respond);
    RelayPersists(st, uid, conversationId, message, ids, systemPrompt, respond);
  }

  /** In a trace that opens, saves the user's message and goes on, nothing before that save asks or streams. */
  lemma OpeningPrecedes(conversationId: Option<string>, ids: FreshIds, message: string, rest: seq<Step>)
    ensures var trace := OpeningSteps(conversationId, ids) + [Saved("user", message)] + rest;
            var k := |OpeningSteps(conversationId, ids)|;
            && k < |trace|
            && trace[k] == Saved("user", message)
            && forall j | 0 <= j < k :: !trace[j].Saved? && !trace[j].Asked? && !(trace[j].Emitted? && trace[j].event.ChunkEvent?)
  {
    var opening := OpeningSteps(conversationId, ids);
    var trace := opening + [Saved("user", message)] + rest;
    assert forall j | 0 <= j < |opening| :: trace[j] == opening[j];
  }

  /** The user's message is saved before the model is asked and before any chunk is emitted, even when the relay fails. */
  lemma RelaySavesUserFirst(st: Store, uid: string, conversationId: Option<string>, message: string,
                            ids: FreshIds, systemPrompt: string, respond: seq<Gemini.Turn> -> seq<string>)
    ensures var trace := Relay(st, uid, conversationId, message, ids, systemPrompt, respond).trace;
            var k := |OpeningSteps(conversationId, ids)|;
            && k < |trace|
            && trace[k] == Saved("user", message)
            && forall j | 0 <= j < k :: !trace[j].Saved? && !trace[j].Asked? && !(trace[j].Emitted? && trace[j].event.ChunkEvent?)
  {
    var r := Relay(st, uid, conversationId, message, ids, systemPrompt, respond);
    if r.failure.None? {
      OpeningPrecedes(conversationId, ids, message,
                      AnswerSteps(message, HistoryFor(st, uid, conversationId), ids, systemPrompt, respond));
    } else {
      OpeningPrecedes(conversationId, ids, message, []);
      assert r.trace == OpeningSteps(conversationId, ids) + [Saved("user", message)] + [];
    }
  }

  /**
   * A completed relay retitles its conversation exactly when the history it
   * read was empty; the stored title is then the message's title, and
   * otherwise stays as it was.
   */
  lemma RelayTitle(st: Store, uid: string, conversationId: Option<string>, message: string,
                   ids: FreshIds, systemPrompt: string, respond: seq<Gemini.Turn> -> seq<string>)
    requires Relay(st, uid, conversationId, message, ids, systemPrompt, respond).failure.None?
    ensures var r := Relay(st, uid, conversationId, message, ids, systemPrompt, respond);
            var history := HistoryFor(st, uid, conversationId);
            var cid := ConversationFor(conversationId, ids);
            && (Retitled(Title(message)) in r.trace <==> |history| == 0)
            && cid in Conversations(r.store, uid)
            && Conversations(r.store, uid)[cid].title ==
                 if |history| == 0 && message != "" then Some(Title(message))
                 else Conversations(Opened(st, uid, conversationId, ids), uid)[cid].title
  {
    AnswerStepsRetitle(message, HistoryFor(st, uid, conversationId), ids, systemPrompt, respond);
  }

  /** A completed relay counts both of its messages on the conversation. */
  lemma RelayCount(st: Store, uid: string, conversationId: Option<string>, message: string,
                   ids: FreshIds, systemPrompt: string, respond: seq<Gemini.Turn> -> seq<string>)
    requires Relay(st, uid, conversationId, message, ids, systemPrompt, respond).failure.None?
    ensures var r := Relay(st, uid, conversationId, message, ids, systemPrompt, respond);
            var cid := ConversationFor(conversationId, ids);
            && cid in Conversations(r.store, uid)
            && Conversations(r.store, uid)[cid].messageCount ==
                 Some(Conversations(Opened(st, uid, conversationId, ids), uid)[cid].messageCount.GetOr(0) + 2)
  {
  }

  /** A relay without a conversation id announces the new conversation before any other event. */
  lemma NewConversationAnnounced(st: Store, uid: string, message: string,
                                 ids: FreshIds, systemPrompt: string, respond: seq<Gemini.Turn> -> seq<string>)
    ensures var r := Relay(st, uid, None, message, ids, systemPrompt, respond);
            && r.failure.None?
            && |Events(r.trace)| > 0
            && Events(r.trace)[0] == ConversationIdEvent(ids.conversation)
  {
    RelayEvents(st, uid, None, message, ids, systemPrompt, respond);
  }

  /** A valid message without a conversation id starts a conversation that holds both messages and the message's title. */
  lemma NewConversationTitled(st: Store, uid: string, message: string,
                              ids: FreshIds, systemPrompt: string, respond: seq<Gemini.Turn> -> seq<string>)
    requires NewChatMessageRequest(None, message).Success?
    ensures var r := Relay(st, uid, None, message, ids, systemPrompt, respond);
            && r.failure.None?
            && ids.conversation in Conversations(r.store, uid)
            && Conversations(r.store, uid)[ids.conversation].title == Some(Title(message))
            && Conversations(r.store, uid)[ids.conversation].messageCount == Some(2)
  {
    assert HistoryFor(st, uid, None) == [];
    assert Conversations(Opened(st, uid, None, ids), uid)[ids.conversation].messageCount == Some(0);
    RelayTitle(st, uid, None, message, ids, systemPrompt, respond);
    RelayCount(st, uid, None, message, ids, systemPrompt, respond);
  }

  /** The relay keeps the store's invariants, given a fresh id for a conversation it creates. */
  lemma RelayPreservesValid(st: Store, uid: string, conversationId: Option<string>, message: string,
                            ids: FreshIds, systemPrompt: string, respond: seq<Gemini.Turn> -> seq<string>)
    requires StoreInvariants.Valid(st)
    requires !Text.Truthy(conversationId) ==> StoreInvariants.FreshConversationId(st, uid, ids.conversation)
    ensures StoreInvariants.Valid(Relay(st, uid, conversationId, message, ids, systemPrompt, respond).store)
  {
    var cid := ConversationFor(conversationId, ids);
    var entered := Opened(st, uid, conversationId, ids);
    if !Text.Truthy(conversationId) {
      StoreInvariants.CreatePreservesValid(st, uid, ids.conversation, DefaultTitle);
    }
    StoreInvariants.AddMessagePreservesValid(entered, uid, cid, "user", message, ids.userMessage);
    var userSave := AddMessage(entered, uid, cid, "user", message, ids.userMessage);
    if userSave.result.Success? {
      var history := HistoryFor(st, uid, conversationId);
      var reply := Text.Concat(Reply(systemPrompt, message, history, respond));
      StoreInvariants.AddMessagePreservesValid(userSave.store, uid, cid, "assistant", reply, ids.assistantMessage);
      var replySave := AddMessage(userSave.store, uid, cid, "assistant", reply, ids.assistantMessage);
      StoreInvariants.RetitlePreservesValid(replySave.store, uid, cid, Some(Title(message)));
    }
  }

  /** The relay touches only its own conversation: other conversations, their messages and the moods stay. */
  lemma RelayIsolation(st: Store, uid: string, conversationId: Option<string>, message: string,
                       ids: FreshIds, systemPrompt: string, respond: seq<Gemini.Turn> -> seq<string>)
    ensures var r := Relay(st, uid, conversationId, message, ids, systemPrompt, respond);
            var cid := ConversationFor(conversationId, ids);
            && UserOf(r.store, uid).moods == UserOf(st, uid).moods
            && (forall other | other != cid :: Messages(r.store, uid, other) == Messages(st, uid, other))
            && (forall other | other in Conversations(st, uid) && other != cid ::
                  other in Conversations(r.store, uid) && Conversations(r.store, uid)[other] == Conversations(st, uid)[other])
  {
  }

  // ============ Endpoints ============

  const NotFound := 404
  const InternalServerError := 500
  const NotFoundDetail := "Conversation not found"
  const UntitledTitle := "Untitled"

  /** `POST /api/chat/message`: a body that fails validation is answered 422 and nothing runs. */
  function SendMessage(st: Store, uid: string, conversationId: Option<string>, message: string,
                       ids: FreshIds, systemPrompt: string, respond: seq<Gemini.Turn> -> seq<string>)
    : (r: Result<RelayRun, HttpError>)
    ensures r.Failure? <==> |message| == 0 || |message| > MaxMessageLength
    ensures r.Failure? ==> r.error.status == UnprocessableEntity
    ensures r.Success? ==> r.value == Relay(st, uid, conversationId, message, ids, systemPrompt, respond)
  {
    match NewChatMessageRequest(conversationId, message)
    case Failure(e) => Failure(e)
    case Success(request) =>
      Success(Relay(st, uid, request.conversationId, request.message, ids, systemPrompt, respond))
  }

  /** One entry of the conversation list. */
  datatype ConversationSummary = ConversationSummary(id: string, title: string, messageCount: int, updatedAt: Instant)

  /** A listed conversation, with "Untitled" and 0 for a missing title or count. */
  function Summarize(c: ConversationRecord): ConversationSummary {
    ConversationSummary(c.id, c.doc.title.GetOr(UntitledTitle), c.doc.messageCount.GetOr(0), c.doc.updatedAt)
  }

  /**
   * `GET /api/chat/conversations`: every conversation of the user exactly
   * once, most recently updated first, with the listing defaults applied.
   */
  method ListConversations(st: Store, uid: string) returns (r: seq<ConversationSummary>)
    ensures forall i, j | 0 <= i < j < |r| :: r[i].updatedAt >= r[j].updatedAt
    ensures forall i, j | 0 <= i < j < |r| :: r[i].id != r[j].id
    ensures forall id | id in Conversations(st, uid) :: exists i | 0 <= i < |r| :: r[i].id == id
    ensures forall i | 0 <= i < |r| ::
              && r[i].id in Conversations(st, uid)
              && var doc := Conversations(st, uid)[r[i].id];
              && r[i].title == (if doc.title.Some? then doc.title.value else UntitledTitle)
              && r[i].messageCount == (if doc.messageCount.Some? then doc.messageCount.value else 0)
              && r[i].updatedAt == doc.updatedAt
  {
    var records := GetConversations(st, uid);
    ListedOnce(Conversations(st, uid), records);
    r := Summaries(records);
    SummariesOrdered(records);
    SummariesCover(Conversations(st, uid), records);
  }

  function Summaries(records: seq<ConversationRecord>): (r: seq<ConversationSummary>)
    ensures |r| == |records|
    ensures forall i | 0 <= i < |r| :: r[i] == Summarize(records[i])
  {
    seq(|records|, i requires 0 <= i < |records| => Summarize(records[i]))
  }

  /** Summaries keep the listing's order and its distinct ids. */
  lemma SummariesOrdered(records: seq<ConversationRecord>)
    requires forall i, j | 0 <= i < j < |records| :: records[i].doc.updatedAt >= records[j].doc.updatedAt
    requires forall i, j | 0 <= i < j < |records| :: records[i].id != records[j].id
    ensures var r := Summaries(records);
            && (forall i, j | 0 <= i < j < |r| :: r[i].updatedAt >= r[j].updatedAt)
            && (forall i, j | 0 <= i < j < |r| :: r[i].id != r[j].id)
  {
  }

  /** Summaries of a listing of every conversation name each one, with the listing defaults. */
  lemma SummariesCover(convs: map<string, ConversationDoc>, records: seq<ConversationRecord>)
    requires forall i | 0 <= i < |records| :: records[i].id in convs && records[i].doc == convs[records[i].id]
    requires forall id | id in convs :: exists i | 0 <= i < |records| :: records[i].id == id
    ensures var r := Summaries(records);
            && (forall id | id in convs :: exists i | 0 <= i < |r| :: r[i].id == id)
            && (forall i | 0 <= i < |r| ::
                  && r[i].id in convs
                  && var doc := convs[r[i].id];
                  && r[i].title == (if doc.title.Some? then doc.title.value else UntitledTitle)
                  && r[i].messageCount == (if doc.messageCount.Some? then doc.messageCount.value else 0)
                  && r[i].updatedAt == doc.updatedAt)
  {
    var r := Summaries(records);
    forall id | id in convs
      ensures exists i | 0 <= i < |r| :: r[i].id == id
    {
      var i :| 0 <= i < |records| && records[i].id == id;
      assert r[i].id == id;
    }
  }

  /** One message of a history answer, its role checked against the enum. */
  datatype ApiMessage = ApiMessage(id: string, role: MessageRole, content: string, createdAt: Instant)

  datatype HistoryResponse = HistoryResponse(conversationId: string, messages: seq<ApiMessage>)

  /** Building the answer's messages fails when a stored role is not one of the enum's values. */
  function ToApiMessages(ms: seq<MessageDoc>): (r: Option<seq<ApiMessage>>)
    ensures r.Some? <==> forall i | 0 <= i < |ms| :: ms[i].role == "user" || ms[i].role == "assistant"
    ensures r.Some? ==>
              && |r.value| == |ms|
              && forall i | 0 <= i < |ms| ::
                   && r.value[i].id == ms[i].id
                   && r.value[i].role.Value() == ms[i].role
                   && r.value[i].content == ms[i].content
                   && r.value[i].createdAt == ms[i].createdAt
  {
    if |ms| == 0 then Some([])
    else
      match ParseMessageRole(ms[0].role)
      case None => None
      case Some(role) =>
        match ToApiMessages(ms[1..])
        case None => None
        case Some(rest) => Some([ApiMessage(ms[0].id, role, ms[0].content, ms[0].createdAt)] + rest)
  }

  /**
   * `GET /api/chat/history/{id}`: 404 for a conversation the user does not
   * have; otherwise its oldest 50 messages. A stored role outside the enum
   * among those 50 makes the response model raise, which the server answers
   * with 500; the answer succeeds exactly when neither happens.
   */
  function GetConversationHistory(st: Store, uid: string, cid: string): (r: Result<HistoryResponse, HttpError>)
    ensures r == Failure(HttpError(NotFound, NotFoundDetail)) <==> cid !in Conversations(st, uid)
    ensures r.Failure? ==> r.error.status == NotFound || r.error.status == InternalServerError
    ensures r.Success? <==>
              && cid in Conversations(st, uid)
              && forall i | 0 <= i < |Messages(st, uid, cid)| && i < DefaultMessageLimit ::
                   Messages(st, uid, cid)[i].role == "user" || Messages(st, uid, cid)[i].role == "assistant"
    ensures r.Success? ==>
              && cid in Conversations(st, uid)
              && r.value.conversationId == cid
              && |r.value.messages| <= DefaultMessageLimit
              && |r.value.messages| <= |Messages(st, uid, cid)|
              && (|r.value.messages| < DefaultMessageLimit ==> |r.value.messages| == |Messages(st, uid, cid)|)
              && forall i | 0 <= i < |r.value.messages| ::
                   && r.value.messages[i].id == Messages(st, uid, cid)[i].id
                   && r.value.messages[i].role.Value() == Messages(st, uid, cid)[i].role
                   && r.value.messages[i].content == Messages(st, uid, cid)[i].content
                   && r.value.messages[i].createdAt == Messages(st, uid, cid)[i].createdAt
  {
    match GetConversation(st, uid, cid)
    case None => Failure(HttpError(NotFound, NotFoundDetail))
    case Some(_) =>
      match ToApiMessages(GetMessages(st, uid, cid, DefaultMessageLimit))
      case None => Failure(HttpError(InternalServerError, "Internal Server Error"))
      case Some(messages) => Success(HistoryResponse(cid, messages))
  }

  /** A conversation holding one user message and one reply shows both in its history. */
  lemma HistoryOfExchange(st: Store, uid: string, cid: string, question: MessageDoc, answer: MessageDoc)
    requires cid in Conversations(st, uid)
    requires Messages(st, uid, cid) == [question, answer]
    requires question.role == "user" && answer.role == "assistant"
    ensures var history := GetConversationHistory(st, uid, cid);
            && history.Success?
            && history.value.messages ==
                 [ApiMessage(question.id, User, question.content, question.createdAt),
                  ApiMessage(answer.id, Assistant, answer.content, answer.createdAt)]
  {
    assert GetMessages(st, uid, cid, DefaultMessageLimit) == [question, answer];
    assert [question, answer][1..] == [answer];
  }

  /**
   * After a relay starts a conversation under a fresh id, its history holds
   * exactly the user's message and the streamed reply, in that order.
   */
  lemma NewConversationHistory(st: Store, uid: string, message: string,
                               ids: FreshIds, systemPrompt: string, respond: seq<Gemini.Turn> -> seq<string>)
    requires StoreInvariants.FreshConversationId(st, uid, ids.conversation)
    ensures var r := Relay(st, uid, None, message, ids, systemPrompt, respond);
            var history := GetConversationHistory(r.store, uid, ids.conversation);
            var reply := Text.Concat(ReplyChunks(st, uid, None, message, systemPrompt, respond));
            && history.Success?
            && |history.value.messages| == 2
            && history.value.messages[0].id == ids.userMessage
            && history.value.messages[0].role == User
            && history.value.messages[0].content == message
            && history.value.messages[1].id == ids.assistantMessage
            && history.value.messages[1].role == Assistant
            && history.value.messages[1].content == reply
  {
    var r := Relay(st, uid, None, message, ids, systemPrompt, respond);
    var entered := Opened(st, uid, None, ids);
    var reply := Text.Concat(ReplyChunks(st, uid, None, message, systemPrompt, respond));
    assert Messages(entered, uid, ids.conversation) == [];
    RelayPersists(st, uid, None, message, ids, systemPrompt, respond);
    RelayCount(st, uid, None, message, ids, systemPrompt, respond);
    HistoryOfExchange(r.store, uid, ids.conversation,
                      MessageDoc(ids.userMessage, "user", message, entered.clock),
                      MessageDoc(ids.assistantMessage, "assistant", reply, entered.clock + 2));
  }
}

=== FILE: config.dfy ===
/** Environment-sourced settings and the CORS origin list derived from them. */
module Config {
  import Text

  const DefaultCorsOriginsStr := "http://localhost:3000,http://localhost:8080"

  /** The settings this model reads; prompt texts are carried as opaque strings. */
  datatype Settings = Settings(
    appEnv: string,
    debug: bool,
    firebaseProjectId: string,
    googleApplicationCredentials: string,
    googleAiApiKey: string,
    corsOriginsStr: string,
    geminiModel: string,
    geminiLiveModel: string,
    chatSystemPrompt: string)

  /** The settings used when no environment variable overrides them. */
  function Defaults(chatSystemPrompt: string): Settings {
    Settings(
      appEnv := "development",
      debug := true,
      firebaseProjectId := "",
      googleApplicationCredentials := "",
      googleAiApiKey := "",
      corsOriginsStr := DefaultCorsOriginsStr,
      geminiModel := "gemini-2.0-flash-exp",
      geminiLiveModel := "models/gemini-2.0-flash-exp",
      chatSystemPrompt := chatSystemPrompt)
  }

  /**
   * `cors_origins`: the comma-separated pieces of `cors_origins_str`, each
   * stripped of surrounding whitespace, one per comma plus one. Origin `i` is
   * the part of piece `i` left between its leading and trailing whitespace.
   */
  function CorsOrigins(settings: Settings): (r: seq<string>)
    ensures |r| == Text.Count(settings.corsOriginsStr, ',') + 1
    ensures |r| == |Text.Split(settings.corsOriginsStr, ',')|
    ensures forall i | 0 <= i < |r| :: Text.Trimmed(r[i]) && ',' !in r[i]
    ensures forall i | 0 <= i < |r| ::
              Text.Between(Text.Split(settings.corsOriginsStr, ',')[i], r[i], Text.IsSpace)
  {
    var pieces := Text.Split(settings.corsOriginsStr, ',');
    assert forall i | 0 <= i < |pieces| :: ',' !in Text.Strip(pieces[i]) by {
      forall i | 0 <= i < |pieces| ensures ',' !in Text.Strip(pieces[i]) {
        Text.StripKeepsOut(pieces[i], ',');
      }
    }
    seq(|pieces|, i requires 0 <= i < |pieces| => Text.Strip(pieces[i]))
  }

  /**
   * Origins written comma-separated, without surrounding whitespace, come
   * back exactly and in their original order.
   */
  lemma CorsOriginsOfJoin(settings: Settings, origins: seq<string>)
    requires |origins| >= 1
    requires forall i | 0 <= i < |origins| :: Text.Trimmed(origins[i]) && ',' !in origins[i]
    requires settings.corsOriginsStr == Text.Join(origins, ',')
    ensures CorsOrigins(settings) == origins
  {
    Text.SplitJoin(origins, ',');
    var r := CorsOrigins(settings);
    forall i | 0 <= i < |origins| ensures r[i] == origins[i] {
      Text.StripTrimmed(origins[i]);
    }
  }

  /**
   * Origins written comma-separated, each with any whitespace before and
   * after it, come back exactly, without that whitespace and in order.
   */
  lemma CorsOriginsOfPaddedJoin(settings: Settings, origins: seq<string>, before: seq<string>, after: seq<string>)
    requires |origins| >= 1 && |before| == |origins| && |after| == |origins|
    requires forall i | 0 <= i < |origins| :: Text.Trimmed(origins[i]) && ',' !in origins[i]
    requires forall i | 0 <= i < |origins| :: Text.AllSpace(before[i]) && Text.AllSpace(after[i])
    requires settings.corsOriginsStr ==
               Text.Join(seq(|origins|, i requires 0 <= i < |origins| => before[i] + origins[i] + after[i]), ',')
    ensures CorsOrigins(settings) == origins
  {
    var padded := seq(|origins|, i requires 0 <= i < |origins| => before[i] + origins[i] + after[i]);
    assert !Text.IsSpace(',');
    forall i | 0 <= i < |padded| ensures ',' !in padded[i] {
      assert forall k | 0 <= k < |before[i]| :: Text.IsSpace(before[i][k]);
      assert forall k | 0 <= k < |after[i]| :: Text.IsSpace(after[i][k]);
    }
    Text.SplitJoin(padded, ',');
    var r := CorsOrigins(settings);
    forall i | 0 <= i < |origins| ensures r[i] == origins[i] {
      Text.StripPadded(before[i], origins[i], after[i]);
    }
  }

  /** The default string yields the two local development origins. */
  lemma DefaultCorsOrigins(chatSystemPrompt: string)
    ensures CorsOrigins(Defaults(chatSystemPrompt)) == ["http://localhost:3000", "http://localhost:8080"]
  {
    var a, b := "http://localhost:3000", "http://localhost:8080";
    var origins := [a, b];
    assert Text.Join(origins, ',') == a + [','] + b == DefaultCorsOriginsStr;
    assert Text.Trimmed(a) && Text.Trimmed(b);
    assert ',' !in a && ',' !in b;
    CorsOriginsOfJoin(Defaults(chatSystemPrompt), origins);
  }

  /** Spaces around the commas are dropped from the origins. */
  lemma SpacedCorsOrigins(settings: Settings)
    requires settings.corsOriginsStr == " http://a.io , http://b.io"
    ensures CorsOrigins(settings) == ["http://a.io", "http://b.io"]
  {
    var origins, before, after := ["http://a.io", "http://b.io"], [" ", " "], [" ", ""];
    var padded := seq(2, i requires 0 <= i < 2 => before[i] + origins[i] + after[i]);
    assert padded == [before[0] + origins[0] + after[0], before[1] + origins[1] + after[1]];
    SpacedCorsPieces();
    SpacedCorsJoin();
    CorsOriginsOfPaddedJoin(settings, origins, before, after);
  }

  lemma SpacedCorsPieces()
    ensures Text.Trimmed("http://a.io") && ',' !in "http://a.io"
    ensures Text.Trimmed("http://b.io") && ',' !in "http://b.io"
    ensures Text.AllSpace(" ") && Text.AllSpace("")
  {
  }

  lemma SpacedCorsJoin()
    ensures Text.Join([" " + "http://a.io" + " ", " " + "http://b.io" + ""], ',')
              == " http://a.io , http://b.io"
  {
    var x, y := " http://a.io ", " http://b.io";
    assert " " + "http://a.io" + " " == x && " " + "http://b.io" + "" == y;
    TwoJoin(x, y);
    assert x + [','] + y == " http://a.io , http://b.io";
  }

  lemma TwoJoin(x: string, y: string)
    ensures Text.Join([x, y], ',') == x + [','] + y
  {
    assert [x, y][1..] == [y];
  }

  /** An empty setting yields one empty origin, not an empty list. */
  lemma EmptyCorsOrigins(settings: Settings)
    requires settings.corsOriginsStr == ""
    ensures CorsOrigins(settings) == [""]
  {
  }
}

=== FILE: gemini.dfy ===
/**
 * The pure parts of the Gemini service: the chat prompt handed to the model,
 * the filter over streamed chunks, the mood summary lines of the analysis
 * prompt, and the ephemeral-token grant. The model itself is not modelled.
 */
module Gemini {
  import opened Wrappers
  import Text
  import Config

  /** Role of one turn in a Gemini prompt. */
  datatype Speaker = UserTurn | ModelTurn

  /** One turn of the prompt: a role and a single text part. */
  datatype Turn = Turn(role: Speaker, text: string)

  /** One earlier message as handed to the service: stored role and content. */
  datatype HistoryEntry = HistoryEntry(role: string, content: string)

  const Acknowledgment := "I understand. I'm here to listen and support you with compassion and empathy."

  /** Stored role "user" is spoken by the user; every other role by the model. */
  function SpeakerOf(role: string): (r: Speaker)
    ensures r == UserTurn <==> role == "user"
  {
    if role == "user" then UserTurn else ModelTurn
  }

  function HistoryTurns(history: seq<HistoryEntry>): (r: seq<Turn>)
    ensures |r| == |history|
    ensures forall i | 0 <= i < |history| ::
              r[i].text == history[i].content && (r[i].role == UserTurn <==> history[i].role == "user")
  {
    seq(|history|, i requires 0 <= i < |history| => Turn(SpeakerOf(history[i].role), history[i].content))
  }

  /**
   * The `contents` of `generate_chat_response`: the system prompt as a user
   * turn, the canned acknowledgment as a model turn, every history entry in
   * order, then the new message as a user turn.
   */
  function BuildContents(systemPrompt: string, message: string, history: seq<HistoryEntry>): (r: seq<Turn>)
    ensures |r| == |history| + 3
    ensures r[0] == Turn(UserTurn, "System: " + systemPrompt)
    ensures r[1] == Turn(ModelTurn, Acknowledgment)
    ensures forall i | 0 <= i < |history| ::
              r[i + 2].text == history[i].content && (r[i + 2].role == UserTurn <==> history[i].role == "user")
    ensures r[|r| - 1] == Turn(UserTurn, message)
  {
    [Turn(UserTurn, "System: " + systemPrompt), Turn(ModelTurn, Acknowledgment)]
      + HistoryTurns(history)
      + [Turn(UserTurn, message)]
  }

  /** The stored role a prompt turn stands for, when the roles are the two message roles. */
  function StoredRole(s: Speaker): string {
    match s
    case UserTurn => "user"
    case ModelTurn => "assistant"
  }

  /** Reads the history back out of a prompt's middle turns. */
  function RecoverHistory(turns: seq<Turn>): (r: seq<HistoryEntry>)
    ensures |r| == |turns|
  {
    seq(|turns|, i requires 0 <= i < |turns| => HistoryEntry(StoredRole(turns[i].role), turns[i].text))
  }

  /**
   * The prompt loses nothing of a history written by the chat relay: its
   * middle turns read back to exactly that history.
   */
  lemma ContentsRoundTrip(systemPrompt: string, message: string, history: seq<HistoryEntry>)
    requires forall i | 0 <= i < |history| :: history[i].role == "user" || history[i].role == "assistant"
    ensures RecoverHistory(BuildContents(systemPrompt, message, history)[2..|history| + 2]) == history
  {
    var middle := BuildContents(systemPrompt, message, history)[2..|history| + 2];
    assert forall i | 0 <= i < |history| :: middle[i] == BuildContents(systemPrompt, message, history)[i + 2];
  }

  /** The chunk texts `generate_chat_response` yields: the non-empty ones, in arrival order. */
  function NonEmptyChunks(raw: seq<string>): (r: seq<string>)
    ensures |r| <= |raw|
    ensures forall i | 0 <= i < |r| :: r[i] != ""
    ensures Text.Concat(r) == Text.Concat(raw)
  {
    if |raw| == 0 then []
    else
      var rest := NonEmptyChunks(raw[1..]);
      if raw[0] == "" then rest
      else
        assert ([raw[0]] + rest)[1..] == rest;
        [raw[0]] + rest
  }

  /** Filtering a stream split in two filters each part: arrival order is kept. */
  lemma {:induction false} NonEmptyChunksAppend(a: seq<string>, b: seq<string>)
    ensures NonEmptyChunks(a + b) == NonEmptyChunks(a) + NonEmptyChunks(b)
  {
    if |a| > 0 {
      assert (a + b)[1..] == a[1..] + b;
      NonEmptyChunksAppend(a[1..], b);
    } else {
      assert a + b == b;
    }
  }

  /** A stream of non-empty chunks passes through unchanged. */
  lemma {:induction false} NonEmptyChunksKeep(raw: seq<string>)
    requires forall i | 0 <= i < |raw| :: raw[i] != ""
    ensures NonEmptyChunks(raw) == raw
  {
    if |raw| > 0 {
      NonEmptyChunksKeep(raw[1..]);
    }
  }

  // ============ Mood analysis prompt ============

  /** One mood entry as the router hands it over: rendered date, score and note. */
  datatype MoodDatum = MoodDatum(date: string, score: real, note: Option<string>)

  /** The arguments of `generate_mood_analysis`. */
  datatype MoodAnalysisInput = MoodAnalysisInput(
    averageScore: real,
    totalEntries: nat,
    trend: string,
    moodData: seq<MoodDatum>)

  const MoodSummaryLimit: nat := 10

  /** A missing note renders as "no note". */
  function NoteText(note: Option<string>): string {
    note.GetOr("no note")
  }

  /** One summary line; how a score is printed is left to `showScore`. */
  function SummaryLine(d: MoodDatum, showScore: real -> string): string {
    "- " + d.date + ": Score " + showScore(d.score) + "/5 (" + NoteText(d.note) + ")"
  }

  /** The summary lines: the first ten entries in the order given, one line each. */
  function MoodSummaryLines(data: seq<MoodDatum>, showScore: real -> string): (r: seq<string>)
    ensures |r| == if |data| < MoodSummaryLimit then |data| else MoodSummaryLimit
    ensures forall i | 0 <= i < |r| :: r[i] == SummaryLine(data[i], showScore)
  {
    var n := if |data| < MoodSummaryLimit then |data| else MoodSummaryLimit;
    seq(n, i requires 0 <= i < n => SummaryLine(data[i], showScore))
  }

  /**
   * `mood_summary`: the summary lines joined by newlines. When no line holds
   * a newline of its own, splitting the summary at newlines gives the lines back.
   */
  function MoodSummary(data: seq<MoodDatum>, showScore: real -> string): (r: string)
    ensures |data| > 0 && (forall i | 0 <= i < |data| :: '\n' !in SummaryLine(data[i], showScore)) ==>
              Text.Split(r, '\n') == MoodSummaryLines(data, showScore)
  {
    var lines := MoodSummaryLines(data, showScore);
    assert |data| > 0 && (forall i | 0 <= i < |data| :: '\n' !in SummaryLine(data[i], showScore)) ==>
             Text.Split(Text.Join(lines, '\n'), '\n') == lines by {
      if |data| > 0 && (forall i | 0 <= i < |data| :: '\n' !in SummaryLine(data[i], showScore)) {
        Text.SplitJoin(lines, '\n');
      }
    }
    Text.Join(lines, '\n')
  }

  /**
   * With more than ten entries in date order, the summary leaves out the
   * newest one: when every rendered date has the same length and the last
   * date is not repeated, no summary line describes the last entry.
   */
  lemma SummaryOmitsNewest(data: seq<MoodDatum>, showScore: real -> string)
    requires |data| > MoodSummaryLimit
    requires forall i | 0 <= i < |data| :: |data[i].date| == |data[|data| - 1].date|
    requires forall i | 0 <= i < |data| - 1 :: data[i].date != data[|data| - 1].date
    ensures SummaryLine(data[|data| - 1], showScore) !in MoodSummaryLines(data, showScore)
  {
    var newest := data[|data| - 1];
    var lines := MoodSummaryLines(data, showScore);
    forall i | 0 <= i < |lines|
      ensures lines[i] != SummaryLine(newest, showScore)
    {
      var n := |newest.date|;
      assert SummaryLine(data[i], showScore)[2..2 + n] == data[i].date;
      assert SummaryLine(newest, showScore)[2..2 + n] == newest.date;
    }
  }

  /** The summary the prompt's "Recent Entries" heading asks for: the last ten entries, oldest of them first. */
  function RecentMoodSummaryLines(data: seq<MoodDatum>, showScore: real -> string): (r: seq<string>)
    ensures |r| == if |data| < MoodSummaryLimit then |data| else MoodSummaryLimit
    ensures forall i | 0 <= i < |r| :: r[i] == SummaryLine(data[|data| - |r| + i], showScore)
  {
    var n := if |data| < MoodSummaryLimit then |data| else MoodSummaryLimit;
    seq(n, i requires 0 <= i < n => SummaryLine(data[|data| - n + i], showScore))
  }

  /** Up to ten entries, both summaries show the same lines; they differ only beyond that. */
  lemma SummariesAgreeWithinLimit(data: seq<MoodDatum>, showScore: real -> string)
    requires |data| <= MoodSummaryLimit
    ensures RecentMoodSummaryLines(data, showScore) == MoodSummaryLines(data, showScore)
  {
  }

  /** The newest entry is always the last line of the corrected summary. */
  lemma RecentSummaryEndsWithNewest(data: seq<MoodDatum>, showScore: real -> string)
    requires |data| > 0
    ensures var lines := RecentMoodSummaryLines(data, showScore);
            |lines| > 0 && lines[|lines| - 1] == SummaryLine(data[|data| - 1], showScore)
  {
  }

  // ============ Live session token ============

  const MicrosecondsPerMinute := 60 * 1000 * 1000
  const TokenLifetimeMinutes := 10
  const LiveEndpoint := "wss://generativelanguage.googleapis.com/ws/google.ai.generativelanguage.v1beta.GenerativeService.BidiGenerateContent?model="

  /** What `get_ephemeral_token` hands out; instants are in microseconds. */
  datatype TokenGrant = TokenGrant(token: string, expiresAt: int, websocketUrl: string)

  /**
   * `get_ephemeral_token`: a grant valid for exactly ten minutes from `now`.
   * The token is the configured API key itself (a placeholder in the source),
   * and the URL names the configured live model.
   */
  function EphemeralToken(settings: Config.Settings, now: int): (r: TokenGrant)
    ensures r.expiresAt > now
    ensures r.expiresAt - now == TokenLifetimeMinutes * MicrosecondsPerMinute
    ensures r.token == settings.googleAiApiKey
    ensures |r.websocketUrl| == |LiveEndpoint| + |settings.geminiLiveModel|
    ensures r.websocketUrl[..|LiveEndpoint|] == LiveEndpoint
    ensures r.websocketUrl[|LiveEndpoint|..] == settings.geminiLiveModel
  {
    TokenGrant(
      settings.googleAiApiKey,
      now + TokenLifetimeMinutes * MicrosecondsPerMinute,
      LiveEndpoint + settings.geminiLiveModel)
  }
}

=== FILE: mood.dfy ===
/**
 * The mood router: the trend classifier and `POST /api/mood/analysis`.
 * Scores are exact reals; the service's float rounding is not modelled.
 */
module Mood {
  import opened Wrappers
  import opened Schemas
  import opened Store
  import Gemini
  import Sequences

  // ============ Score arithmetic ============

  function Sum(s: seq<real>): real {
    if |s| == 0 then 0.0 else s[0] + Sum(s[1..])
  }

  function Mean(s: seq<real>): real
    requires |s| > 0
  {
    Sum(s) / (|s| as real)
  }

  /** Every score moved by `c`. */
  function Shift(s: seq<real>, c: real): (r: seq<real>)
    ensures |r| == |s|
  {
    seq(|s|, i requires 0 <= i < |s| => s[i] + c)
  }

  /** Every score negated. */
  function Negate(s: seq<real>): (r: seq<real>)
    ensures |r| == |s|
  {
    seq(|s|, i requires 0 <= i < |s| => -s[i])
  }

  lemma {:induction false} SumShift(s: seq<real>, c: real)
    ensures Sum(Shift(s, c)) == Sum(s) + (|s| as real) * c
  {
    if |s| > 0 {
      assert Shift(s, c)[1..] == Shift(s[1..], c);
      SumShift(s[1..], c);
    }
  }

  lemma {:induction false} SumNegate(s: seq<real>)
    ensures Sum(Negate(s)) == -Sum(s)
  {
    if |s| > 0 {
      assert Negate(s)[1..] == Negate(s[1..]);
      SumNegate(s[1..]);
    }
  }

  /** Scores bounded below by `lo` sum to at least `|s| * lo`. */
  lemma {:induction false} SumAtLeast(s: seq<real>, lo: real)
    requires forall i | 0 <= i < |s| :: lo <= s[i]
    ensures (|s| as real) * lo <= Sum(s)
  {
    if |s| > 0 {
      SumAtLeast(s[1..], lo);
    }
  }

  /** Scores bounded above by `hi` sum to at most `|s| * hi`. */
  lemma {:induction false} SumAtMost(s: seq<real>, hi: real)
    requires forall i | 0 <= i < |s| :: s[i] <= hi
    ensures Sum(s) <= (|s| as real) * hi
  {
    if |s| > 0 {
      SumAtMost(s[1..], hi);
    }
  }

  /** Scores strictly above `lo` sum to more than `|s| * lo`, when there is one. */
  lemma {:induction false} SumAbove(s: seq<real>, lo: real)
    requires |s| > 0
    requires forall i | 0 <= i < |s| :: lo < s[i]
    ensures (|s| as real) * lo < Sum(s)
  {
    if |s| > 1 {
      SumAbove(s[1..], lo);
    }
  }

  lemma MeanAtLeast(s: seq<real>, lo: real)
    requires |s| > 0
    requires forall i | 0 <= i < |s| :: lo <= s[i]
    ensures lo <= Mean(s)
  {
    SumAtLeast(s, lo);
    var n := |s| as real;
    assert Mean(s) * n == Sum(s);
  }

  lemma MeanAtMost(s: seq<real>, hi: real)
    requires |s| > 0
    requires forall i | 0 <= i < |s| :: s[i] <= hi
    ensures Mean(s) <= hi
  {
    SumAtMost(s, hi);
    var n := |s| as real;
    assert Mean(s) * n == Sum(s);
  }

  /** A mean lies between any bounds of its scores. */
  lemma MeanWithin(s: seq<real>, lo: real, hi: real)
    requires |s| > 0
    requires forall i | 0 <= i < |s| :: lo <= s[i] <= hi
    ensures lo <= Mean(s) <= hi
  {
    MeanAtLeast(s, lo);
    MeanAtMost(s, hi);
  }

  /** Scores strictly above `lo` have a mean above `lo`. */
  lemma MeanAbove(s: seq<real>, lo: real)
    requires |s| > 0
    requires forall i | 0 <= i < |s| :: lo < s[i]
    ensures lo < Mean(s)
  {
    SumAbove(s, lo);
    var n := |s| as real;
    assert Mean(s) * n == Sum(s);
  }

  lemma MeanShift(s: seq<real>, c: real)
    requires |s| > 0
    ensures Mean(Shift(s, c)) == Mean(s) + c
  {
    SumShift(s, c);
    var n := |s| as real;
    assert (Sum(s) + n * c) / n == Sum(s) / n + c;
  }

  lemma MeanNegate(s: seq<real>)
    requires |s| > 0
    ensures Mean(Negate(s)) == -Mean(s)
  {
    SumNegate(s);
  }

  // ============ Trend ============

  const TrendThreshold: real := 0.3

  /** The first half of a series; with an odd length the middle entry goes to the second half. */
  function Earlier<T>(s: seq<T>): seq<T> {
    s[..|s| / 2]
  }

  function Later<T>(s: seq<T>): seq<T> {
    s[|s| / 2..]
  }

  /**
   * `calculate_trend`: improving or declining when the second half's mean
   * exceeds or falls short of the first half's by more than 0.3; stable
   * otherwise, and for fewer than two scores.
   */
  function CalculateTrend(scores: seq<real>): (t: MoodTrend)
    ensures |scores| < 2 ==> t == Stable
  {
    if |scores| < 2 then Stable
    else Classify(Mean(Later(scores)) - Mean(Earlier(scores)))
  }

  /** The trend a difference of means stands for. */
  function Classify(diff: real): MoodTrend {
    if diff > TrendThreshold then Improving
    else if diff < -TrendThreshold then Declining
    else Stable
  }

  /** Two or more scores split into two non-empty halves, the second one the longer by at most one. */
  lemma HalvesSplit<T>(s: seq<T>)
    requires |s| >= 2
    ensures Earlier(s) + Later(s) == s
    ensures 1 <= |Earlier(s)| <= |Later(s)| <= |Earlier(s)| + 1
  {
  }

  /**
   * Each difference falls in exactly one band; a difference of exactly 0.3
   * either way is stable.
   */
  lemma ClassifyBands(diff: real)
    ensures Classify(diff) == Improving <==> diff > TrendThreshold
    ensures Classify(diff) == Declining <==> diff < -TrendThreshold
    ensures Classify(diff) == Stable <==> -TrendThreshold <= diff <= TrendThreshold
    ensures Classify(TrendThreshold) == Stable && Classify(-TrendThreshold) == Stable
  {
  }

  /** The difference of two means, over a common denominator. */
  lemma MeanDifference(x: real, a: real, y: real, b: real)
    requires a > 0.0 && b > 0.0
    ensures y / b - x / a == (a * y - b * x) / (a * b)
  {
  }

  /** Comparing a quotient by a positive number is comparing the product. */
  lemma CompareQuotient(q: real, k: real, c: real)
    requires k > 0.0
    ensures q / k > c <==> q > c * k
    ensures q / k < -c <==> q < -c * k
  {
    assert (q / k) * k == q;
    if q / k > c {
      assert (q / k) * k > c * k;
    }
    if q > c * k {
      assert q / k > c;
    }
  }

  /**
   * The trend without division: with `a` and `b` the halves' lengths, the
   * series improves exactly when `a * Sum(second) - b * Sum(first)` exceeds
   * `0.3 * a * b`, and declines exactly when it is below `-0.3 * a * b`.
   */
  lemma TrendByTotals(s: seq<real>)
    requires |s| >= 2
    ensures var a := |Earlier(s)| as real;
            var b := |Later(s)| as real;
            var d := a * Sum(Later(s)) - b * Sum(Earlier(s));
            && (CalculateTrend(s) == Improving <==> d > TrendThreshold * (a * b))
            && (CalculateTrend(s) == Declining <==> d < -TrendThreshold * (a * b))
  {
    var a := |Earlier(s)| as real;
    var b := |Later(s)| as real;
    var d := a * Sum(Later(s)) - b * Sum(Earlier(s));
    MeanDifference(Sum(Earlier(s)), a, Sum(Later(s)), b);
    CompareQuotient(d, a * b, TrendThreshold);
  }

  /** A series of equal scores is stable. */
  lemma ConstantIsStable(s: seq<real>, c: real)
    requires forall i | 0 <= i < |s| :: s[i] == c
    ensures CalculateTrend(s) == Stable
  {
    if |s| >= 2 {
      MeanWithin(Earlier(s), c, c);
      MeanWithin(Later(s), c, c);
    }
  }

  /** Moving every score by the same amount leaves the trend as it was. */
  lemma ShiftKeepsTrend(s: seq<real>, c: real)
    ensures CalculateTrend(Shift(s, c)) == CalculateTrend(s)
  {
    if |s| >= 2 {
      var t := Shift(s, c);
      assert Earlier(t) == Shift(Earlier(s), c);
      assert Later(t) == Shift(Later(s), c);
      MeanShift(Earlier(s), c);
      MeanShift(Later(s), c);
    }
  }

  /** The trend read the other way round. */
  function Opposite(t: MoodTrend): MoodTrend {
    match t
    case Improving => Declining
    case Declining => Improving
    case Stable => Stable
  }

  /** Negating every score swaps improving and declining, and keeps stable. */
  lemma NegateFlipsTrend(s: seq<real>)
    ensures CalculateTrend(Negate(s)) == Opposite(CalculateTrend(s))
  {
    if |s| >= 2 {
      var t := Negate(s);
      assert Earlier(t) == Negate(Earlier(s));
      assert Later(t) == Negate(Later(s));
      MeanNegate(Earlier(s));
      MeanNegate(Later(s));
    }
  }

  /** When every later score exceeds every earlier one by more than the threshold, the series improves. */
  lemma SeparatedHalvesImprove(s: seq<real>, bar: real)
    requires |s| >= 2
    requires forall i | 0 <= i < |Earlier(s)| :: Earlier(s)[i] <= bar
    requires forall i | 0 <= i < |Later(s)| :: bar + TrendThreshold < Later(s)[i]
    ensures CalculateTrend(s) == Improving
  {
    MeanAtMost(Earlier(s), bar);
    MeanAbove(Later(s), bar + TrendThreshold);
  }

  lemma TrendExamples()
    ensures CalculateTrend([1.0, 1.0, 5.0, 5.0]) == Improving
    ensures CalculateTrend([5.0, 5.0, 1.0]) == Declining
    ensures CalculateTrend([3.0, 3.2]) == Stable
    ensures CalculateTrend([3.0]) == Stable
  {
    assert Earlier([1.0, 1.0, 5.0, 5.0]) == [1.0, 1.0];
    assert Later([1.0, 1.0, 5.0, 5.0]) == [5.0, 5.0];
    assert Earlier([5.0, 5.0, 1.0]) == [5.0];
    assert Later([5.0, 5.0, 1.0]) == [5.0, 1.0];
    assert Earlier([3.0, 3.2]) == [3.0];
    assert Later([3.0, 3.2]) == [3.2];
  }

  // ============ Analysis endpoint ============

  const BadRequest := 400
  const InvalidDateDetail := "Invalid date format. Use YYYY-MM-DD."
  const DateOrderDetail := "Start date must be before end date."
  const NoEntriesInsight := "No mood entries found for this period. Start tracking your mood to see insights!"

  datatype MoodPeriod = MoodPeriod(start: string, end: string)

  datatype MoodStats = MoodStats(averageScore: real, totalEntries: nat, trend: MoodTrend)

  datatype MoodAnalysisResponse = MoodAnalysisResponse(period: MoodPeriod, summary: MoodStats, aiInsight: string)

  /** An answer of the analysis endpoint, with the arguments the model was called with, if it was. */
  datatype Analysis = Analysis(response: Result<MoodAnalysisResponse, HttpError>, modelCall: Option<Gemini.MoodAnalysisInput>)

  function Scores(moods: seq<MoodEntry>): (r: seq<real>)
    ensures |r| == |moods|
    ensures forall i | 0 <= i < |r| :: r[i] == moods[i].score
  {
    seq(|moods|, i requires 0 <= i < |moods| => moods[i].score)
  }

  /** The entries as handed to the model; a missing note is handed over as the empty note. */
  function MoodData(moods: seq<MoodEntry>, showDate: int -> string): (r: seq<Gemini.MoodDatum>)
    ensures |r| == |moods|
  {
    seq(|moods|, i requires 0 <= i < |moods| =>
      Gemini.MoodDatum(showDate(moods[i].date), moods[i].score, Some(moods[i].note.GetOr(""))))
  }

  /**
   * `analyze_mood_patterns`. `parseDate` stands for `datetime.fromisoformat`,
   * `showDate` for the date rendering and `generate` for the model.
   */
  function AnalyzeMoodPatterns(st: Store, uid: string, startText: string, endText: string,
                               parseDate: string -> Option<int>, showDate: int -> string,
                               generate: Gemini.MoodAnalysisInput -> string): (r: Analysis)
    ensures r.response.Failure? ==> r.modelCall.None? && r.response.error.status == BadRequest
    ensures r.response.Success? <==>
              parseDate(startText).Some? && parseDate(endText).Some? &&
              parseDate(startText).value <= parseDate(endText).value
    ensures r.response == Failure(HttpError(BadRequest, InvalidDateDetail)) <==>
              parseDate(startText).None? || parseDate(endText).None?
    ensures r.response == Failure(HttpError(BadRequest, DateOrderDetail)) <==>
              parseDate(startText).Some? && parseDate(endText).Some? &&
              parseDate(startText).value > parseDate(endText).value
    ensures r.response.Success? ==>
              var start := parseDate(startText).value;
              var end := parseDate(endText).value;
              && r.response.value.period == MoodPeriod(startText, endText)
              && r.response.value.summary.totalEntries == CountInRange(UserOf(st, uid).moods, start, end)
              && (r.modelCall.None? <==> r.response.value.summary.totalEntries == 0)
    ensures r.response.Success? && r.modelCall.None? ==>
              r.response.value.summary == MoodStats(0.0, 0, Stable) && r.response.value.aiInsight == NoEntriesInsight
    ensures r.response.Success? && r.modelCall.Some? ==>
              var input := r.modelCall.value;
              && r.response.value.aiInsight == generate(input)
              && r.response.value.summary.averageScore == input.averageScore
              && r.response.value.summary.totalEntries == input.totalEntries == |input.moodData|
              && r.response.value.summary.trend.Value() == input.trend
  {
    var start := parseDate(startText);
    var end := parseDate(endText);
    if start.None? || end.None? then
      Analysis(Failure(HttpError(BadRequest, InvalidDateDetail)), None)
    else if start.value > end.value then
      Analysis(Failure(HttpError(BadRequest, DateOrderDetail)), None)
    else
      var moods := GetMoodsInRange(st, uid, start.value, end.value);
      MoodsInRangeCount(st, uid, start.value, end.value);
      var period := MoodPeriod(startText, endText);
      if |moods| == 0 then
        Analysis(Success(MoodAnalysisResponse(period, MoodStats(0.0, 0, Stable), NoEntriesInsight)), None)
      else
        var scores := Scores(moods);
        var trend := CalculateTrend(scores);
        var input := Gemini.MoodAnalysisInput(Mean(scores), |moods|, trend.Value(), MoodData(moods, showDate));
        Analysis(Success(MoodAnalysisResponse(period, MoodStats(Mean(scores), |moods|, trend), generate(input))), Some(input))
  }

  /** What a completed analysis reports, in terms of the entries the range query returns. */
  lemma AnalysisFigures(st: Store, uid: string, startText: string, endText: string,
                        parseDate: string -> Option<int>, showDate: int -> string,
                        generate: Gemini.MoodAnalysisInput -> string)
    ensures var r := AnalyzeMoodPatterns(st, uid, startText, endText, parseDate, showDate, generate);
            r.modelCall.Some? ==>
              && r.response.Success?
              && var moods := GetMoodsInRange(st, uid, parseDate(startText).value, parseDate(endText).value);
              && |moods| > 0
              && r.response.value.summary.averageScore == Mean(Scores(moods))
              && r.response.value.summary.trend == CalculateTrend(Scores(moods))
              && r.modelCall.value.moodData == MoodData(moods, showDate)
  {
  }

  /** The reported average lies within any bounds of the scores of the entries in range. */
  lemma AverageWithinScores(st: Store, uid: string, startText: string, endText: string,
                            parseDate: string -> Option<int>, showDate: int -> string,
                            generate: Gemini.MoodAnalysisInput -> string, lo: real, hi: real)
    requires parseDate(startText).Some? && parseDate(endText).Some?
    requires forall m | m in UserOf(st, uid).moods && InRange(m, parseDate(startText).value, parseDate(endText).value) ::
               lo <= m.score <= hi
    ensures var r := AnalyzeMoodPatterns(st, uid, startText, endText, parseDate, showDate, generate);
            r.modelCall.Some? ==> lo <= r.response.value.summary.averageScore <= hi
  {
    var moods := GetMoodsInRange(st, uid, parseDate(startText).value, parseDate(endText).value);
    AnalysisFigures(st, uid, startText, endText, parseDate, showDate, generate);
    if |moods| > 0 {
      assert forall i | 0 <= i < |moods| :: moods[i] in moods;
      MeanWithin(Scores(moods), lo, hi);
    }
  }

  /** When every entry in range carries the same score, the reported trend is stable. */
  lemma EvenScoresAreStable(st: Store, uid: string, startText: string, endText: string,
                            parseDate: string -> Option<int>, showDate: int -> string,
                            generate: Gemini.MoodAnalysisInput -> string, c: real)
    requires parseDate(startText).Some? && parseDate(endText).Some?
    requires forall m | m in UserOf(st, uid).moods && InRange(m, parseDate(startText).value, parseDate(endText).value) ::
               m.score == c
    ensures var r := AnalyzeMoodPatterns(st, uid, startText, endText, parseDate, showDate, generate);
            r.response.Success? ==> r.response.value.summary.trend == Stable
  {
    var moods := GetMoodsInRange(st, uid, parseDate(startText).value, parseDate(endText).value);
    AnalysisFigures(st, uid, startText, endText, parseDate, showDate, generate);
    if |moods| > 0 {
      assert forall i | 0 <= i < |moods| :: moods[i] in moods;
      ConstantIsStable(Scores(moods), c);
    }
  }

  /**
   * The model always receives a note for every entry, so the summary's
   * "no note" fallback never applies: a missing note reads as empty.
   */
  lemma NotesAlwaysSupplied(st: Store, uid: string, startText: string, endText: string,
                            parseDate: string -> Option<int>, showDate: int -> string,
                            generate: Gemini.MoodAnalysisInput -> string)
    ensures var r := AnalyzeMoodPatterns(st, uid, startText, endText, parseDate, showDate, generate);
            r.modelCall.Some? ==>
              && r.response.Success?
              && var moods := GetMoodsInRange(st, uid, parseDate(startText).value, parseDate(endText).value);
              && |r.modelCall.value.moodData| == |moods|
              && forall i | 0 <= i < |moods| ::
                   && r.modelCall.value.moodData[i].note.Some?
                   && Gemini.NoteText(r.modelCall.value.moodData[i].note) == moods[i].note.GetOr("")
  {
  }

  /**
   * The prompt's summary shows the earliest entries of the period: every
   * entry it shows is dated no later than every entry it leaves out. The
   * data it summarises is the period's entries in date order (see
   * `AnalysisFigures`).
   */
  lemma SummaryShowsEarliest(st: Store, uid: string, start: int, end: int,
                             showDate: int -> string, showScore: real -> string)
    ensures var moods := GetMoodsInRange(st, uid, start, end);
            var lines := Gemini.MoodSummaryLines(MoodData(moods, showDate), showScore);
            && |lines| <= |moods|
            && (forall i | 0 <= i < |lines| ::
                  lines[i] == Gemini.SummaryLine(MoodData(moods, showDate)[i], showScore))
            && (forall i, j | 0 <= i < |lines| <= j < |moods| :: moods[i].date <= moods[j].date)
  {
  }

  /**
   * The corrected summary shows the latest entries of the period: every
   * entry it leaves out is dated no later than every entry it shows.
   */
  lemma RecentSummaryShowsLatest(st: Store, uid: string, start: int, end: int,
                                 showDate: int -> string, showScore: real -> string)
    ensures var moods := GetMoodsInRange(st, uid, start, end);
            var lines := Gemini.RecentMoodSummaryLines(MoodData(moods, showDate), showScore);
            var skipped := |moods| - |lines|;
            && 0 <= skipped
            && (forall i | 0 <= i < |lines| ::
                  lines[i] == Gemini.SummaryLine(MoodData(moods, showDate)[skipped + i], showScore))
            && (forall i, j | 0 <= j < skipped <= i < |moods| :: moods[j].date <= moods[i].date)
  {
  }
}

=== FILE: schemas.dfy ===
/** Request/response shapes and their validation bounds (pydantic models). */
module Schemas {
  import opened Wrappers

  /** An HTTP error answer: status code and detail text. */
  datatype HttpError = HttpError(status: int, detail: string)

  /** FastAPI answers a request body that fails validation with 422. */
  const UnprocessableEntity := 422

  const MaxMessageLength := 2000
  const MaxJournalLength := 10000

  /** Author of a stored chat message. */
  datatype MessageRole = User | Assistant {
    /** The enum's string value as stored and sent on the wire. */
    function Value(): string {
      match this
      case User => "user"
      case Assistant => "assistant"
    }
  }

  /** `MessageRole(s)`: accepts exactly the two enum values, and inverts `Value`. */
  function ParseMessageRole(s: string): (r: Option<MessageRole>)
    ensures r.Some? <==> s == "user" || s == "assistant"
    ensures r.Some? ==> r.value.Value() == s
    ensures forall role: MessageRole :: s == role.Value() ==> r == Some(role)
  {
    if s == "user" then Some(User)
    else if s == "assistant" then Some(Assistant)
    else None
  }

  /** Direction of a mood series. */
  datatype MoodTrend = Improving | Declining | Stable {
    function Value(): string {
      match this
      case Improving => "improving"
      case Declining => "declining"
      case Stable => "stable"
    }
  }

  /** `MoodTrend(s)`: accepts exactly the three enum values, and inverts `Value`. */
  function ParseMoodTrend(s: string): (r: Option<MoodTrend>)
    ensures r.Some? <==> s == "improving" || s == "declining" || s == "stable"
    ensures r.Some? ==> r.value.Value() == s
    ensures forall t: MoodTrend :: s == t.Value() ==> r == Some(t)
  {
    if s == "improving" then Some(Improving)
    else if s == "declining" then Some(Declining)
    else if s == "stable" then Some(Stable)
    else None
  }

  /** Body of `POST /api/chat/message`; an omitted conversation id is `None`. */
  datatype ChatMessageRequest = ChatMessageRequest(conversationId: Option<string>, message: string)

  /** Validation of the chat body: the message must hold 1 to 2000 characters. */
  function NewChatMessageRequest(conversationId: Option<string>, message: string)
    : (r: Result<ChatMessageRequest, HttpError>)
    ensures r.Success? <==> 1 <= |message| <= MaxMessageLength
    ensures r.Success? ==> r.value.message == message && r.value.conversationId == conversationId
    ensures r.Failure? ==> r.error.status == UnprocessableEntity
  {
    if 1 <= |message| <= MaxMessageLength then Success(ChatMessageRequest(conversationId, message))
    else Failure(HttpError(UnprocessableEntity, "message"))
  }

  /** Body of `POST /api/journal/insight`. */
  datatype JournalInsightRequest = JournalInsightRequest(journalId: string, content: string)

  /** Validation of the journal body: the content must hold 1 to 10000 characters. */
  function NewJournalInsightRequest(journalId: string, content: string)
    : (r: Result<JournalInsightRequest, HttpError>)
    ensures r.Success? <==> 1 <= |content| <= MaxJournalLength
    ensures r.Success? ==> r.value == JournalInsightRequest(journalId, content)
    ensures r.Failure? ==> r.error.status == UnprocessableEntity
  {
    if 1 <= |content| <= MaxJournalLength then Success(JournalInsightRequest(journalId, content))
    else Failure(HttpError(UnprocessableEntity, "content"))
  }
}

=== FILE: sequences.dfy ===
/** Generic list operations the store queries are built from. */
module Sequences {

  /** Python's `s[:n]` for a non-negative `n`, and Firestore's `limit(n)`. */
  function Take<T>(s: seq<T>, n: nat): (r: seq<T>)
    ensures |r| == if n <= |s| then n else |s|
    ensures r == s[..|r|]
  {
    if n <= |s| then s[..n] else s
  }

  /** Every element's key is at most the key of every later element. */
  ghost predicate SortedBy<T>(s: seq<T>, key: T -> int) {
    forall i, j | 0 <= i < j < |s| :: key(s[i]) <= key(s[j])
  }

  /**
   * Inserts `x` into a list after every leading element whose key is not
   * larger, so elements with equal keys keep their order of arrival.
   */
  function Insert<T>(s: seq<T>, x: T, key: T -> int): (r: seq<T>)
    ensures multiset(r) == multiset(s) + multiset{x}
  {
    if |s| == 0 then [x]
    else if key(x) < key(s[0]) then [x] + s
    else
      assert s == [s[0]] + s[1..];
      [s[0]] + Insert(s[1..], x, key)
  }

  /** Inserting an element no smaller than a bound keeps every key above the bound. */
  lemma {:induction false} InsertAbove<T>(s: seq<T>, x: T, key: T -> int, bound: int)
    requires forall i | 0 <= i < |s| :: bound <= key(s[i])
    requires bound <= key(x)
    ensures forall i | 0 <= i < |Insert(s, x, key)| :: bound <= key(Insert(s, x, key)[i])
  {
    if |s| > 0 && key(x) >= key(s[0]) {
      InsertAbove(s[1..], x, key, bound);
    }
  }

  /** Inserting into a sorted list keeps it sorted. */
  lemma {:induction false} InsertSorted<T>(s: seq<T>, x: T, key: T -> int)
    requires SortedBy(s, key)
    ensures SortedBy(Insert(s, x, key), key)
  {
    if |s| > 0 && key(x) >= key(s[0]) {
      InsertSorted(s[1..], x, key);
      InsertAbove(s[1..], x, key, key(s[0]));
    }
  }

  /** A stable insertion sort: a permutation of `s` ordered by `key`. */
  function SortBy<T>(s: seq<T>, key: T -> int): (r: seq<T>)
    ensures SortedBy(r, key)
    ensures multiset(r) == multiset(s)
  {
    if |s| == 0 then []
    else
      assert s == s[..|s| - 1] + [s[|s| - 1]];
      InsertSorted(SortBy(s[..|s| - 1], key), s[|s| - 1], key);
      Insert(SortBy(s[..|s| - 1], key), s[|s| - 1], key)
  }

  /** The elements of `s` satisfying `p`, in their original order. */
  function Filter<T>(s: seq<T>, p: T -> bool): (r: seq<T>)
    ensures |r| <= |s|
    ensures forall x | x in r :: p(x) && x in s
    ensures forall x | x in s && p(x) :: x in r
    ensures multiset(r) <= multiset(s)
    ensures forall x | x in s && p(x) :: multiset(r)[x] == multiset(s)[x]
  {
    if |s| == 0 then []
    else
      var rest := Filter(s[1..], p);
      assert s == [s[0]] + s[1..];
      if p(s[0]) then [s[0]] + rest else rest
  }

  /** An element found at two positions occurs at least twice. */
  lemma MultisetTwice<T>(s: seq<T>, i: nat, j: nat)
    requires i < j < |s| && s[i] == s[j]
    ensures multiset(s)[s[i]] >= 2
  {
    assert s == s[..j] + [s[j]] + s[j + 1..];
    assert s[i] == s[..j][i];
  }
}

=== FILE: store.dfy ===
/**
 * The per-user document tree kept in Firestore, as an abstract state:
 * users/{uid}/conversations/{id}, users/{uid}/conversations/{id}/messages/{id}
 * and users/{uid}/moods/{id}. Every operation reads and writes the subtree
 * of one uid only.
 *
 * `datetime.utcnow()` is the store's logical clock: each read returns
 * `clock` and advances it, so successive timestamps strictly increase.
 * Generated document ids are parameters.
 */
module Store {
  import opened Wrappers
  import Text
  import Sequences

  type Instant = nat

  /** A conversation document; `title` and `messageCount` may be absent from a stored document. */
  datatype ConversationDoc = ConversationDoc(
    title: Option<string>,
    messageCount: Option<int>,
    createdAt: Instant,
    updatedAt: Instant)

  /** A conversation as the service returns it: the document with its id. */
  datatype ConversationRecord = ConversationRecord(id: string, doc: ConversationDoc)

  datatype MessageDoc = MessageDoc(id: string, role: string, content: string, createdAt: Instant)

  /** A mood entry; entries are written elsewhere and only read here. */
  datatype MoodEntry = MoodEntry(id: string, date: int, score: real, note: Option<string>)

  /**
   * One user's subtree. Messages are keyed by conversation id and kept in
   * the order written, because a messages subcollection can exist without
   * its parent document.
   */
  datatype UserData = UserData(
    conversations: map<string, ConversationDoc>,
    messages: map<string, seq<MessageDoc>>,
    moods: seq<MoodEntry>)

  datatype Store = Store(users: map<string, UserData>, clock: Instant)

  /** Firestore's `update` on a document that does not exist raises NotFound. */
  datatype StoreError = MissingConversation(conversationId: string)

  /** The state after a write, and what the write returned or raised. */
  datatype Written<T> = Written(store: Store, result: Result<T, StoreError>)

  const DefaultTitle := "New Conversation"
  const DefaultMessageLimit: nat := 50

  function UserOf(st: Store, uid: string): UserData {
    if uid in st.users then st.users[uid] else UserData(map[], map[], [])
  }

  function MessagesOf(u: UserData, cid: string): seq<MessageDoc> {
    if cid in u.messages then u.messages[cid] else []
  }

  function Conversations(st: Store, uid: string): map<string, ConversationDoc> {
    UserOf(st, uid).conversations
  }

  function Messages(st: Store, uid: string, cid: string): seq<MessageDoc> {
    MessagesOf(UserOf(st, uid), cid)
  }

  /** Replaces one user's subtree and sets the clock. */
  function Put(st: Store, uid: string, u: UserData, clock: Instant): Store {
    Store(st.users[uid := u], clock)
  }

  /** Every user other than `uid` sees the same subtree in both states. */
  ghost predicate OthersUnchanged(st: Store, st': Store, uid: string) {
    forall other | other != uid :: UserOf(st', other) == UserOf(st, other)
  }

  // ============ Conversations ============

  /** Sort key placing the most recently updated conversation first. */
  function Recency(c: ConversationRecord): int {
    -(c.doc.updatedAt as int)
  }

  /** The set of the user's conversations, each with its id. */
  ghost function Records(convs: map<string, ConversationDoc>, ids: set<string>): set<ConversationRecord> {
    set id | id in ids && id in convs :: ConversationRecord(id, convs[id])
  }

  /**
   * `get_conversations`: every conversation of the user exactly once, with
   * its id, most recently updated first.
   */
  method GetConversations(st: Store, uid: string) returns (r: seq<ConversationRecord>)
    ensures forall i, j | 0 <= i < j < |r| :: r[i].doc.updatedAt >= r[j].doc.updatedAt
    ensures multiset(r) == multiset(Records(Conversations(st, uid), Conversations(st, uid).Keys))
  {
    var convs := Conversations(st, uid);
    var pending := convs.Keys;
    r := [];
    while pending != {}
      invariant pending <= convs.Keys
      invariant Sequences.SortedBy(r, Recency)
      invariant multiset(r) == multiset(Records(convs, convs.Keys - pending))
      decreases pending
    {
      var id :| id in pending;
      var record := ConversationRecord(id, convs[id]);
      Sequences.InsertSorted(r, record, Recency);
      assert record !in Records(convs, convs.Keys - pending);
      assert Records(convs, convs.Keys - (pending - {id})) == Records(convs, convs.Keys - pending) + {record};
      r := Sequences.Insert(r, record, Recency);
      pending := pending - {id};
    }
    assert forall i, j | 0 <= i < j < |r| :: Recency(r[i]) <= Recency(r[j]);
  }

  /**
   * A listing with the multiset of the user's records names every
   * conversation exactly once, each with its own document.
   */
  lemma ListedOnce(convs: map<string, ConversationDoc>, r: seq<ConversationRecord>)
    requires multiset(r) == multiset(Records(convs, convs.Keys))
    ensures forall i | 0 <= i < |r| :: r[i].id in convs && r[i].doc == convs[r[i].id]
    ensures forall id | id in convs :: exists i | 0 <= i < |r| :: r[i].id == id
    ensures forall i, j | 0 <= i < j < |r| :: r[i].id != r[j].id
  {
    var all := Records(convs, convs.Keys);
    forall i | 0 <= i < |r|
      ensures r[i] in all
    {
      assert r[i] in multiset(r);
    }
    forall id | id in convs
      ensures exists i | 0 <= i < |r| :: r[i].id == id
    {
      var record := ConversationRecord(id, convs[id]);
      assert record in all;
      assert record in multiset(r);
      var i :| 0 <= i < |r| && r[i] == record;
    }
    forall i, j | 0 <= i < j < |r|
      ensures r[i].id != r[j].id
    {
      if r[i].id == r[j].id {
        assert r[i] == r[j];
        Sequences.MultisetTwice(r, i, j);
      }
    }
  }

  /** `get_conversation`: the document with this id, or None when there is none. */
  function GetConversation(st: Store, uid: string, id: string): (r: Option<ConversationDoc>)
    ensures r.None? <==> id !in Conversations(st, uid)
    ensures r.Some? ==> r.value == Conversations(st, uid)[id]
  {
    if id in Conversations(st, uid) then Some(Conversations(st, uid)[id]) else None
  }

  /**
   * `create_conversation`: writes a document with the given title, a zero
   * message count and equal creation and update instants. Writing to an id
   * already present overwrites that document, as Firestore's `set` does.
   */
  function CreateConversation(st: Store, uid: string, id: string, title: string)
    : (r: (Store, ConversationRecord))
    ensures r.1 == ConversationRecord(id, ConversationDoc(Some(title), Some(0), st.clock, st.clock))
    ensures Conversations(r.0, uid) == Conversations(st, uid)[id := r.1.doc]
    ensures UserOf(r.0, uid).messages == UserOf(st, uid).messages
    ensures UserOf(r.0, uid).moods == UserOf(st, uid).moods
    ensures r.0.clock > st.clock
    ensures OthersUnchanged(st, r.0, uid)
  {
    var now := st.clock;
    var doc := ConversationDoc(Some(title), Some(0), now, now);
    var u := UserOf(st, uid);
    (Put(st, uid, u.(conversations := u.conversations[id := doc]), now + 1), ConversationRecord(id, doc))
  }

  /**
   * `update_conversation`: refreshes `updatedAt`, overwrites the title only
   * when a non-empty one is given, and raises the message count by one when
   * asked. A missing document makes the update raise and nothing is written.
   */
  function UpdateConversation(st: Store, uid: string, id: string, title: Option<string>, incrementMessages: bool)
    : (r: Written<()>)
    ensures r.result.Failure? <==> id !in Conversations(st, uid)
    ensures r.result.Failure? ==> r.store.users == st.users
    ensures r.result.Success? ==>
              var before := Conversations(st, uid)[id];
              && Conversations(r.store, uid).Keys == Conversations(st, uid).Keys
              && var after := Conversations(r.store, uid)[id];
              && after.updatedAt == st.clock
              && after.createdAt == before.createdAt
              && (Text.Truthy(title) ==> after.title == title)
              && (!Text.Truthy(title) ==> after.title == before.title)
              && (incrementMessages ==> after.messageCount == Some(before.messageCount.GetOr(0) + 1))
              && (!incrementMessages ==> after.messageCount == before.messageCount)
    ensures r.result.Success? ==>
              forall other | other in Conversations(st, uid) && other != id ::
                Conversations(r.store, uid)[other] == Conversations(st, uid)[other]
    ensures UserOf(r.store, uid).messages == UserOf(st, uid).messages
    ensures UserOf(r.store, uid).moods == UserOf(st, uid).moods
    ensures r.store.clock > st.clock
    ensures OthersUnchanged(st, r.store, uid)
  {
    var now := st.clock;
    var u := UserOf(st, uid);
    if id !in u.conversations then
      Written(st.(clock := now + 1), Failure(MissingConversation(id)))
    else
      var c := u.conversations[id];
      var titled := if Text.Truthy(title) then title else c.title;
      var counted := if incrementMessages then Some(c.messageCount.GetOr(0) + 1) else c.messageCount;
      var c' := c.(title := titled, messageCount := counted, updatedAt := now);
      Written(Put(st, uid, u.(conversations := u.conversations[id := c']), now + 1), Success(()))
  }

  // ============ Messages ============

  /** `get_messages`: the `limit` oldest messages of a conversation, oldest first. */
  function GetMessages(st: Store, uid: string, cid: string, limit: nat): (r: seq<MessageDoc>)
    ensures |r| <= limit && |r| <= |Messages(st, uid, cid)|
    ensures |r| == limit || r == Messages(st, uid, cid)
    ensures r == Messages(st, uid, cid)[..|r|]
  {
    Sequences.Take(Messages(st, uid, cid), limit)
  }

  /**
   * `add_message`: writes the message stamped with the current instant, then
   * updates its conversation with a count increment. The message stays
   * written even when that update raises because the conversation is missing.
   */
  function AddMessage(st: Store, uid: string, cid: string, role: string, content: string, id: string)
    : (r: Written<MessageDoc>)
    ensures Messages(r.store, uid, cid) == Messages(st, uid, cid) + [MessageDoc(id, role, content, st.clock)]
    ensures forall other | other != cid :: Messages(r.store, uid, other) == Messages(st, uid, other)
    ensures r.result.Failure? <==> cid !in Conversations(st, uid)
    ensures r.result.Failure? ==> Conversations(r.store, uid) == Conversations(st, uid)
    ensures r.result.Success? ==> r.result.value == MessageDoc(id, role, content, st.clock)
    ensures r.result.Success? ==>
              var before := Conversations(st, uid)[cid];
              && Conversations(r.store, uid).Keys == Conversations(st, uid).Keys
              && var after := Conversations(r.store, uid)[cid];
              && after.messageCount == Some(before.messageCount.GetOr(0) + 1)
              && after.title == before.title
              && after.createdAt == before.createdAt
              && after.updatedAt == st.clock + 1
    ensures forall other | other in Conversations(st, uid) && other != cid ::
              Conversations(r.store, uid)[other] == Conversations(st, uid)[other]
    ensures UserOf(r.store, uid).moods == UserOf(st, uid).moods
    ensures r.store.clock == st.clock + 2
    ensures OthersUnchanged(st, r.store, uid)
  {
    var now := st.clock;
    var msg := MessageDoc(id, role, content, now);
    var u := UserOf(st, uid);
    var written := Put(st, uid, u.(messages := u.messages[cid := MessagesOf(u, cid) + [msg]]), now + 1);
    var updated := UpdateConversation(written, uid, cid, None, true);
    Written(updated.store, if updated.result.Success? then Success(msg) else Failure(updated.result.error))
  }

  // ============ Moods ============

  predicate InRange(m: MoodEntry, start: int, end: int) {
    start <= m.date <= end
  }

  /** How many stored entries are dated within the inclusive range. */
  function CountInRange(moods: seq<MoodEntry>, start: int, end: int): nat {
    if |moods| == 0 then 0
    else (if InRange(moods[0], start, end) then 1 else 0) + CountInRange(moods[1..], start, end)
  }

  lemma {:induction false} FilterCountsInRange(moods: seq<MoodEntry>, p: MoodEntry -> bool, start: int, end: int)
    requires forall i | 0 <= i < |moods| :: p(moods[i]) == InRange(moods[i], start, end)
    ensures |Sequences.Filter(moods, p)| == CountInRange(moods, start, end)
  {
    if |moods| > 0 {
      FilterCountsInRange(moods[1..], p, start, end);
    }
  }

  /**
   * `get_moods_in_range`: exactly the entries dated within the inclusive
   * range, each as often as it is stored, in ascending date order.
   */
  function GetMoodsInRange(st: Store, uid: string, start: int, end: int): (r: seq<MoodEntry>)
    ensures forall m | m in r :: InRange(m, start, end) && m in UserOf(st, uid).moods
    ensures forall m | m in UserOf(st, uid).moods && InRange(m, start, end) ::
              multiset(r)[m] == multiset(UserOf(st, uid).moods)[m]
    ensures multiset(r) <= multiset(UserOf(st, uid).moods)
    ensures forall i, j | 0 <= i < j < |r| :: r[i].date <= r[j].date
  {
    var picked := Sequences.Filter(UserOf(st, uid).moods, Within(start, end));
    var r := Sequences.SortBy(picked, (m: MoodEntry) => m.date);
    assert forall m | m in r :: m in multiset(picked);
    r
  }

  /** The range test as a value, so that a query and a proof filter with the same function. */
  function Within(start: int, end: int): MoodEntry -> bool {
    (m: MoodEntry) => InRange(m, start, end)
  }

  /** The query returns as many entries as are stored within the range. */
  lemma MoodsInRangeCount(st: Store, uid: string, start: int, end: int)
    ensures |GetMoodsInRange(st, uid, start, end)| == CountInRange(UserOf(st, uid).moods, start, end)
  {
    var moods := UserOf(st, uid).moods;
    var picked := Sequences.Filter(moods, Within(start, end));
    var r := GetMoodsInRange(st, uid, start, end);
    FilterCountsInRange(moods, Within(start, end), start, end);
    assert |r| == |multiset(r)| == |multiset(picked)| == |picked|;
  }
}

=== FILE: store_invariants.dfy ===
/** Invariants of the store that its write operations keep, and history round trips. */
module StoreInvariants {
  import opened Wrappers
  import opened Store

  /** Messages strictly ordered by creation instant. */
  ghost predicate Chronological(ms: seq<MessageDoc>) {
    forall i, j | 0 <= i < j < |ms| :: ms[i].createdAt < ms[j].createdAt
  }

  /**
   * One user's subtree is consistent: every conversation counts exactly the
   * messages stored under it, every stamp lies before the clock, and each
   * conversation's messages are in creation order.
   */
  ghost predicate ValidUser(u: UserData, clock: Instant) {
    && (forall id | id in u.conversations ::
          && u.conversations[id].createdAt <= u.conversations[id].updatedAt < clock
          && u.conversations[id].messageCount == Some(|MessagesOf(u, id)|))
    && (forall cid | cid in u.messages ::
          && Chronological(u.messages[cid])
          && forall k | 0 <= k < |u.messages[cid]| :: u.messages[cid][k].createdAt < clock)
  }

  ghost predicate Valid(st: Store) {
    forall uid | uid in st.users :: ValidUser(st.users[uid], st.clock)
  }

  /** A generated conversation id that names no document and no messages yet. */
  ghost predicate FreshConversationId(st: Store, uid: string, id: string) {
    id !in Conversations(st, uid) && Messages(st, uid, id) == []
  }

  lemma ValidUserOf(st: Store, uid: string)
    requires Valid(st)
    ensures ValidUser(UserOf(st, uid), st.clock)
  {
  }

  /** A state whose changed user is valid, with a later clock, is valid. */
  lemma ValidAfterPut(st: Store, st': Store, uid: string)
    requires Valid(st) && st.clock <= st'.clock
    requires OthersUnchanged(st, st', uid)
    requires ValidUser(UserOf(st', uid), st'.clock)
    ensures Valid(st')
  {
    forall other | other in st'.users
      ensures ValidUser(st'.users[other], st'.clock)
    {
      assert st'.users[other] == UserOf(st', other);
      if other != uid {
        assert UserOf(st', other) == UserOf(st, other);
        ValidUserOf(st, other);
      }
    }
  }

  /** Creating a conversation under a fresh id keeps the store consistent. */
  lemma CreatePreservesValid(st: Store, uid: string, id: string, title: string)
    requires Valid(st)
    requires FreshConversationId(st, uid, id)
    ensures Valid(CreateConversation(st, uid, id, title).0)
  {
    var st' := CreateConversation(st, uid, id, title).0;
    ValidUserOf(st, uid);
    ValidAfterPut(st, st', uid);
  }

  /** Retitling (without a count increment) keeps the store consistent. */
  lemma RetitlePreservesValid(st: Store, uid: string, id: string, title: Option<string>)
    requires Valid(st)
    ensures Valid(UpdateConversation(st, uid, id, title, false).store)
  {
    var r := UpdateConversation(st, uid, id, title, false);
    ValidUserOf(st, uid);
    ValidAfterPut(st, r.store, uid);
  }

  /**
   * Adding a message keeps the store consistent: the message lands after
   * every earlier one, and its conversation's count grows with it.
   */
  lemma AddMessagePreservesValid(st: Store, uid: string, cid: string, role: string, content: string, id: string)
    requires Valid(st)
    ensures Valid(AddMessage(st, uid, cid, role, content, id).store)
  {
    var r := AddMessage(st, uid, cid, role, content, id);
    var u := UserOf(st, uid);
    var u' := UserOf(r.store, uid);
    ValidUserOf(st, uid);
    forall other | other in u'.conversations
      ensures u'.conversations[other].createdAt <= u'.conversations[other].updatedAt < r.store.clock
      ensures u'.conversations[other].messageCount == Some(|MessagesOf(u', other)|)
    {
      assert MessagesOf(u', other) == Messages(r.store, uid, other);
    }
    forall c | c in u'.messages
      ensures Chronological(u'.messages[c])
      ensures forall k | 0 <= k < |u'.messages[c]| :: u'.messages[c][k].createdAt < r.store.clock
    {
      assert u'.messages[c] == Messages(r.store, uid, c);
    }
    ValidAfterPut(st, r.store, uid);
  }

  /** In a consistent store, `get_messages` answers in strictly ascending creation order. */
  lemma GetMessagesChronological(st: Store, uid: string, cid: string, limit: nat)
    requires Valid(st)
    ensures Chronological(GetMessages(st, uid, cid, limit))
  {
    ValidUserOf(st, uid);
  }

  /** A message to add to a conversation: role, content and generated id. */
  datatype Draft = Draft(role: string, content: string, id: string)

  /** Calls `add_message` once per draft, in order. */
  function AddAll(st: Store, uid: string, cid: string, drafts: seq<Draft>): Store
    decreases |drafts|
  {
    if |drafts| == 0 then st
    else
      var d := drafts[0];
      AddAll(AddMessage(st, uid, cid, d.role, d.content, d.id).store, uid, cid, drafts[1..])
  }

  /**
   * Messages added one after another come back from `get_messages` after
   * the earlier ones, in the order added, with their role, content and id,
   * as long as the limit covers them all.
   */
  lemma {:induction false} HistoryRoundTrip(st: Store, uid: string, cid: string, drafts: seq<Draft>, limit: nat)
    requires |Messages(st, uid, cid)| + |drafts| <= limit
    decreases |drafts|
    ensures var got := GetMessages(AddAll(st, uid, cid, drafts), uid, cid, limit);
            && |got| == |Messages(st, uid, cid)| + |drafts|
            && got[..|Messages(st, uid, cid)|] == Messages(st, uid, cid)
            && forall k | 0 <= k < |drafts| ::
                 var m := got[|Messages(st, uid, cid)| + k];
                 m.role == drafts[k].role && m.content == drafts[k].content && m.id == drafts[k].id
  {
    if |drafts| > 0 {
      var d := drafts[0];
      var st1 := AddMessage(st, uid, cid, d.role, d.content, d.id).store;
      HistoryRoundTrip(st1, uid, cid, drafts[1..], limit);
      var n := |Messages(st, uid, cid)|;
      var got := GetMessages(AddAll(st, uid, cid, drafts), uid, cid, limit);
      assert got == GetMessages(AddAll(st1, uid, cid, drafts[1..]), uid, cid, limit);
      assert Messages(st1, uid, cid)[..n] == Messages(st, uid, cid);
      forall k | 1 <= k < |drafts|
        ensures got[n + k].role == drafts[k].role && got[n + k].content == drafts[k].content
        ensures got[n + k].id == drafts[k].id
      {
        assert drafts[1..][k - 1] == drafts[k];
      }
    }
  }

  /** Each added message raises an existing conversation's count by exactly one. */
  lemma {:induction false} CountRoundTrip(st: Store, uid: string, cid: string, drafts: seq<Draft>)
    requires cid in Conversations(st, uid)
    decreases |drafts|
    ensures var after := Conversations(AddAll(st, uid, cid, drafts), uid);
            && cid in after
            && after[cid].messageCount.GetOr(0) == Conversations(st, uid)[cid].messageCount.GetOr(0) + |drafts|
            && (|drafts| > 0 ==> after[cid].messageCount.Some?)
  {
    if |drafts| > 0 {
      var d := drafts[0];
      var st1 := AddMessage(st, uid, cid, d.role, d.content, d.id).store;
      assert cid in Conversations(st1, uid);
      assert Conversations(st1, uid)[cid].messageCount ==
        Some(Conversations(st, uid)[cid].messageCount.GetOr(0) + 1);
      CountRoundTrip(st1, uid, cid, drafts[1..]);
      assert AddAll(st, uid, cid, drafts) == AddAll(st1, uid, cid, drafts[1..]);
    }
  }
}

=== FILE: text.dfy ===
/**
 * String helpers with Python's meaning: `str.strip()`, `str.split(sep)`,
 * `sep.join(parts)`, `"".join(parts)` and slicing by a prefix length.
 */
module Text {
  import opened Wrappers

  /** Python truthiness of an optional string: present and non-empty. */
  predicate Truthy(s: Option<string>) {
    s.Some? && s.value != ""
  }

  /** The characters Python's `str.isspace()` accepts, which `str.strip()` removes. */
  predicate IsSpace(c: char) {
    || ('\t' <= c <= '\r')
    || ('\U{001C}' <= c <= ' ')
    || c == '\U{0085}' || c == '\U{00A0}' || c == '\U{1680}'
    || ('\U{2000}' <= c <= '\U{200A}')
    || c == '\U{2028}' || c == '\U{2029}' || c == '\U{202F}'
    || c == '\U{205F}' || c == '\U{3000}'
  }

  /** Every character of `s` satisfies `p`. */
  predicate All(s: string, p: char -> bool) {
    forall i | 0 <= i < |s| :: p(s[i])
  }

  predicate AllSpace(s: string) {
    All(s, IsSpace)
  }

  /** `s` neither starts nor ends with a character satisfying `p`. */
  predicate Bare(s: string, p: char -> bool) {
    s == [] || (!p(s[0]) && !p(s[|s| - 1]))
  }

  /** True iff `s` neither starts nor ends with whitespace. */
  predicate Trimmed(s: string) {
    Bare(s, IsSpace)
  }

  /** Drops the leading characters satisfying `p`: what remains is a suffix of `s`. */
  function DropLeading(s: string, p: char -> bool): (r: string)
    ensures |r| <= |s| && r == s[|s| - |r|..]
    ensures All(s[..|s| - |r|], p)
    ensures r == [] || !p(r[0])
  {
    if |s| > 0 && p(s[0]) then
      var r := DropLeading(s[1..], p);
      assert s[..|s| - |r|] == [s[0]] + s[1..][..|s| - 1 - |r|];
      r
    else
      s
  }

  /** Drops the trailing characters satisfying `p`: what remains is a prefix of `s`. */
  function DropTrailing(s: string, p: char -> bool): (r: string)
    ensures |r| <= |s| && r == s[..|r|]
    ensures All(s[|r|..], p)
    ensures r == [] || !p(r[|r| - 1])
  {
    if |s| > 0 && p(s[|s| - 1]) then
      var r := DropTrailing(s[..|s| - 1], p);
      assert s[|r|..] == s[..|s| - 1][|r|..] + [s[|s| - 1]];
      r
    else
      s
  }

  /** `r` is an infix of `s` with only characters satisfying `p` before and after it. */
  predicate Between(s: string, r: string, p: char -> bool) {
    exists i | 0 <= i <= |s| - |r| :: r == s[i..i + |r|] && All(s[..i], p) && All(s[i + |r|..], p)
  }

  /**
   * Cuts the runs of characters satisfying `p` from both ends: the result is
   * the infix of `s` between such runs, and it neither starts nor ends with one.
   */
  function StripBy(s: string, p: char -> bool): (r: string)
    ensures Bare(r, p) && Between(s, r, p)
  {
    var t := DropLeading(s, p);
    var r := DropTrailing(t, p);
    StripParts(s, t, r, p);
    r
  }

  /**
   * Python's `s.strip()`: the result is the infix of `s` left once all
   * whitespace is removed from both ends, and it has none at either end.
   */
  function Strip(s: string): (r: string)
    ensures Trimmed(r) && Between(s, r, IsSpace)
  {
    StripBy(s, IsSpace)
  }

  /**
   * A prefix `r` of a suffix `t` of `s`, each cut where `p` stops holding,
   * is an infix of `s` between runs of `p`, and neither starts nor ends with one.
   */
  lemma StripParts(s: string, t: string, r: string, p: char -> bool)
    requires |t| <= |s| && t == s[|s| - |t|..] && All(s[..|s| - |t|], p) && (t == [] || !p(t[0]))
    requires |r| <= |t| && r == t[..|r|] && All(t[|r|..], p) && (r == [] || !p(r[|r| - 1]))
    ensures Bare(r, p) && Between(s, r, p)
  {
    var i := |s| - |t|;
    assert s[i + |r|..] == t[|r|..];
    if r != [] {
      assert r[0] == t[0];
    }
    assert r == s[i..i + |r|] && All(s[..i], p) && All(s[i + |r|..], p);
  }

  /** Stripping never introduces a character the input lacks. */
  lemma StripKeepsOut(s: string, c: char)
    requires c !in s
    ensures c !in Strip(s)
  {
    var t := DropLeading(s, IsSpace);
    assert c !in t;
  }

  /** The first position of `s` not covered by a leading run of `p` is `|a|`, when `s` is `a + o + b` with `o` bare and non-empty. */
  lemma {:induction false} PaddedStart(a: string, o: string, b: string, i: nat, p: char -> bool)
    requires All(a, p) && o != [] && Bare(o, p)
    requires i <= |a + o + b| && All((a + o + b)[..i], p)
    requires i < |a + o + b| && !p((a + o + b)[i])
    ensures i == |a|
  {
    var s := a + o + b;
    assert forall k | 0 <= k < i :: s[..i][k] == s[k];
    assert forall k | 0 <= k < |a| :: s[k] == a[k];
    assert s[|a|] == o[0];
  }

  /** Symmetrically, a trailing run of `p` in `a + o + b` starts right after `o`. */
  lemma {:induction false} PaddedEnd(a: string, o: string, b: string, e: nat, p: char -> bool)
    requires All(b, p) && o != [] && Bare(o, p)
    requires 0 < e <= |a + o + b| && All((a + o + b)[e..], p)
    requires !p((a + o + b)[e - 1])
    ensures e == |a| + |o|
  {
    var s := a + o + b;
    assert forall k | e <= k < |s| :: s[e..][k - e] == s[k];
    assert forall k | |a| + |o| <= k < |s| :: s[k] == b[k - |a| - |o|];
    assert s[|a| + |o| - 1] == o[|o| - 1];
  }

  /**
   * In `a + o + b` with `a` and `b` runs of `p` and `o` bare, the only bare
   * infix between runs of `p` is `o` itself.
   */
  lemma PaddedInfix(a: string, o: string, b: string, r: string, i: nat, p: char -> bool)
    requires All(a, p) && All(b, p) && Bare(o, p)
    requires i + |r| <= |a + o + b| && r == (a + o + b)[i..i + |r|]
    requires All((a + o + b)[..i], p) && All((a + o + b)[i + |r|..], p) && Bare(r, p)
    ensures r == o
  {
    var s := a + o + b;
    if o == [] {
      assert forall k | 0 <= k < |a| :: s[k] == a[k];
      assert forall k | |a| <= k < |s| :: s[k] == b[k - |a|];
    } else {
      assert forall k | 0 <= k < i :: s[..i][k] == s[k];
      assert forall k | i + |r| <= k < |s| :: s[i + |r|..][k - i - |r|] == s[k];
      assert s[|a|] == o[0];
      if r != [] {
        assert r[0] == s[i] && r[|r| - 1] == s[i + |r| - 1];
        PaddedStart(a, o, b, i, p);
        PaddedEnd(a, o, b, i + |r|, p);
        assert s[|a|..|a| + |o|] == o;
      }
    }
  }

  /** The only bare infix of a bare string padded with runs of `p`, itself framed by such runs, is that string. */
  lemma PaddedBetween(a: string, o: string, b: string, r: string, p: char -> bool)
    requires All(a, p) && All(b, p) && Bare(o, p)
    requires Between(a + o + b, r, p) && Bare(r, p)
    ensures r == o
  {
    var s := a + o + b;
    var i :| 0 <= i <= |s| - |r| && r == s[i..i + |r|] && All(s[..i], p) && All(s[i + |r|..], p);
    PaddedInfix(a, o, b, r, i, p);
  }

  /** Cutting runs of `p` from a bare string padded with such runs gives back that string. */
  lemma StripByPadded(a: string, o: string, b: string, p: char -> bool)
    requires All(a, p) && All(b, p) && Bare(o, p)
    ensures StripBy(a + o + b, p) == o
  {
    PaddedBetween(a, o, b, StripBy(a + o + b, p), p);
  }

  /** Stripping a trimmed string padded with whitespace on both sides gives back that string. */
  lemma StripPadded(a: string, o: string, b: string)
    requires AllSpace(a) && AllSpace(b) && Trimmed(o)
    ensures Strip(a + o + b) == o
  {
    StripByPadded(a, o, b, IsSpace);
  }

  /** Stripping a string that is already trimmed changes nothing. */
  lemma StripTrimmed(s: string)
    requires Trimmed(s)
    ensures Strip(s) == s
  {
    assert "" + s + "" == s;
    StripPadded("", s, "");
  }

  /** Number of occurrences of `c` in `s`. */
  function Count(s: string, c: char): nat {
    if |s| == 0 then 0 else (if s[0] == c then 1 else 0) + Count(s[1..], c)
  }

  /**
   * Python's `s.split(sep)` for a one-character separator: one more piece
   * than there are separators, and no piece holds the separator.
   */
  function Split(s: string, sep: char): (r: seq<string>)
    ensures |r| == Count(s, sep) + 1
    ensures forall i | 0 <= i < |r| :: sep !in r[i]
  {
    if |s| == 0 then [""]
    else
      var rest := Split(s[1..], sep);
      if s[0] == sep then [""] + rest
      else
        assert forall i | 1 <= i < |rest| :: sep !in rest[i];
        [[s[0]] + rest[0]] + rest[1..]
  }

  /** Python's `sep.join(parts)`. */
  function Join(parts: seq<string>, sep: char): string {
    if |parts| == 0 then ""
    else if |parts| == 1 then parts[0]
    else parts[0] + [sep] + Join(parts[1..], sep)
  }

  lemma JoinConsChar(c: char, p: string, ps: seq<string>, sep: char)
    ensures Join([[c] + p] + ps, sep) == [c] + Join([p] + ps, sep)
  {
    assert ([[c] + p] + ps)[1..] == ps;
    assert ([p] + ps)[1..] == ps;
  }

  /** Joining the pieces of a split gives back the original string. */
  lemma {:induction false} JoinSplit(s: string, sep: char)
    ensures Join(Split(s, sep), sep) == s
  {
    if |s| > 0 {
      var rest := Split(s[1..], sep);
      JoinSplit(s[1..], sep);
      if s[0] == sep {
        assert ([""] + rest)[1..] == rest;
        assert s == [sep] + s[1..];
      } else {
        assert rest == [rest[0]] + rest[1..];
        JoinConsChar(s[0], rest[0], rest[1..], sep);
        assert s == [s[0]] + s[1..];
      }
    }
  }

  /** A piece without the separator splits to itself. */
  lemma {:induction false} SplitPlain(p: string, sep: char)
    requires sep !in p
    ensures Split(p, sep) == [p]
  {
    if |p| > 0 {
      assert sep !in p[1..];
      SplitPlain(p[1..], sep);
      assert p == [p[0]] + p[1..];
    }
  }

  /** A separator-free piece followed by the separator splits off as one piece. */
  lemma {:induction false} SplitAtSeparator(p: string, t: string, sep: char)
    requires sep !in p
    ensures Split(p + [sep] + t, sep) == [p] + Split(t, sep)
  {
    if |p| == 0 {
      assert p + [sep] + t == [sep] + t;
      assert ([sep] + t)[1..] == t;
    } else {
      var s := p + [sep] + t;
      assert s[0] == p[0] && s[1..] == p[1..] + [sep] + t;
      assert sep !in p[1..];
      SplitAtSeparator(p[1..], t, sep);
      assert [p[0]] + p[1..] == p;
    }
  }

  /** Splitting the join of separator-free pieces gives back the pieces. */
  lemma {:induction false} SplitJoin(parts: seq<string>, sep: char)
    requires |parts| >= 1
    requires forall i | 0 <= i < |parts| :: sep !in parts[i]
    ensures Split(Join(parts, sep), sep) == parts
  {
    if |parts| == 1 {
      SplitPlain(parts[0], sep);
    } else {
      SplitJoin(parts[1..], sep);
      SplitAtSeparator(parts[0], Join(parts[1..], sep), sep);
      assert [parts[0]] + parts[1..] == parts;
    }
  }

  /** Python's `"".join(parts)`, also `+=` accumulation over a stream. */
  function Concat(parts: seq<string>): string {
    if |parts| == 0 then "" else parts[0] + Concat(parts[1..])
  }

  /** Concatenation distributes over appending lists of pieces. */
  lemma {:induction false} ConcatAppend(a: seq<string>, b: seq<string>)
    ensures Concat(a + b) == Concat(a) + Concat(b)
  {
    if |a| > 0 {
      assert (a + b)[1..] == a[1..] + b;
      ConcatAppend(a[1..], b);
    } else {
      assert a + b == b;
    }
  }
}

=== FILE: wrappers.dfy ===
/** Failure-carrying datatypes shared by the whole model. */
module Wrappers {

  /** A value that may be absent: Python's `None` versus a present value. */
  datatype Option<+T> = None | Some(value: T) {

    /** The present value, or `default` when absent (Python's `d.get(key, default)`). */
    function GetOr(default: T): T {
      match this
      case Some(v) => v
      case None => default
    }
  }

  /** Either a computed value or the error that replaced it (a raised exception). */
  datatype Result<+T, +E> = Success(value: T) | Failure(error: E)
}
